=== FILE: README.md ===
# Extractor of FLINT function declarations

A model of the `Extractor` class of `flint_pxd_autogen` and of its wrapper
`extract_functions`. The extractor reads the lines of a FLINT
reStructuredText documentation file, one line at a time. It recognises:

- `.. function::`, `.. macro::` and `.. type::` blocks;
- signature continuation lines, indented by 14 columns for functions and
  10 columns for macros;
- indented documentation bodies;
- section headers, which are lines underlined by `----`.

For every function it collects a pair `(signatures, doc)` and stores it in
the `content` dictionary, under the current section.

The files:

- `Text.dfy` (module `Text`): the Python string operations the extractor
  relies on. These are `startswith`, `endswith`, substring `in`, `str.replace`
  (left to right, never overlapping) and `str.strip` (with Python's
  whitespace set). It also holds lemmas on when a replacement removes a
  pattern and when it cannot create one.
- `Normalizer.dfy` (module `Normalizer`): the pure parts of finishing a
  function.
  - The screening loop of `add_function`: raise at the first fragment
    without both parentheses, and drop `va_list ` fragments.
  - The fourteen textual rewrites of `clean_signatures`.
  - The documentation clean-up of `clean_doc`.
- `ExtractorModel.dfy` (module `ExtractorModel`): the extractor's attributes as a
  value (`Parser`), and for each method a function giving the attributes it
  leaves behind, or the exception it raises.
- `ExtractorProperties.dfy` (module `ExtractorProperties`): what the extractor
  promises, proved about those functions. This covers each branch of
  `process_line`, the invariant of every reachable state, termination of
  `run`, and the shape of what `extract_functions` returns.
- `Autogen.dfy` (module `Autogen`): the class `Extractor`. Its fields are
  the Python attributes. Its methods update them in place with the same
  loops and branches as the source. Each method is proved to compute the
  corresponding function of `ExtractorModel`.

Python's exceptions become an `Error` value returned in a `Result`:

- `ValueError` for a non-`.rst` name;
- `RuntimeError` for an illegal state;
- `RuntimeError` for a fragment without a parenthesis;
- `IndexError` for a marker with nothing after it;
- `ValueError` for an unexpected line in a signature block.

The `print`ed warnings are appended to a `warnings` log. Once a method
raises, the object is discarded by every caller, so only the error is
stated.

The model follows the code as written, including these details a reader
might not expect:

- A line that ends a declaration without being a marker, header or
  documentation line is consumed (`autogen.py:202-204`), not re-examined.
- Empty documentation lines are never stored (`autogen.py:190`).
- The header branch assigns a local variable `section` (`autogen.py:198`),
  never `self.section`. So every key of `content` is `None`, and the
  dictionary has at most one entry (`ExtractWellFormed`).
- `add_function` checks the parentheses of the raw fragments before they
  are cleaned.

## Model

| member | source | states |
|---|---|---|
| Text.Strip | flint_pxd_autogen/autogen.py:164 | `str.strip`: the result is a slice of the input starting at its first non-whitespace character; it is empty exactly when the input is all whitespace, and otherwise neither starts nor ends with whitespace; everything after that slice is whitespace |
| Text.ReplaceAll | flint_pxd_autogen/autogen.py:75 | `str.replace`: a text in which the pattern does not occur is returned unchanged; `ReplaceAllRemoves`, `ReplaceAllKeepsAbsent` and `ReplaceAllKeepsChar` state what a replacement removes and what it keeps |
| Text.ReplaceAllRemoves | flint_pxd_autogen/autogen.py:83 | after `s.replace(p, r)` the pattern `p` no longer occurs, provided no part of `r` can line up with `p` |
| Text.ReplaceAllKeepsAbsent | flint_pxd_autogen/autogen.py:88 | `s.replace(p, r)` creates no occurrence of a text `q` that `s` lacked, provided `r` cannot help form `q` |
| Text.ReplaceAllKeepsAbsentShared | flint_pxd_autogen/autogen.py:83 | the same, when `r` may line up with the end of `q` only where the pattern `p` lines up too |
| Text.ReplaceAllKeepsChar | flint_pxd_autogen/autogen.py:83 | a character survives `replace` when every pattern containing it is replaced by text containing it |
| Normalizer.Screen | flint_pxd_autogen/autogen.py:108-116 | the screening loop of `add_function` as a value; `ScreenRaises`, `ScreenPartitions` and `ScreenIsPermutation` state which fragment it raises with, and which fragments it keeps and drops |
| Normalizer.ScreenRaises | flint_pxd_autogen/autogen.py:109-111 | the screening loop raises exactly when some fragment lacks `(` or `)`, and it raises with the first such fragment |
| Normalizer.ScreenPartitions | flint_pxd_autogen/autogen.py:108-116 | when nothing raises, the kept fragments are exactly those without `va_list `, and the dropped ones exactly those with it, each in original order |
| Normalizer.ScreenIsPermutation | flint_pxd_autogen/autogen.py:108-116 | when nothing raises, kept and dropped fragments together are the input fragments as a multiset: none is lost or duplicated |
| Normalizer.Filter | flint_pxd_autogen/autogen.py:112-115 | a fragment is in the filtered list exactly when it is in the input and its `va_list ` test has the requested outcome |
| Normalizer.RenamesFor | flint_pxd_autogen/autogen.py:86 | the inner loop of the comprehension: one renaming per reserved name, in the order of the names, built from the pattern |
| Normalizer.RenameTableMembers | flint_pxd_autogen/autogen.py:86 | every entry of the comprehension's result is one pattern filled with one reserved name and its replacement |
| Normalizer.RenamesListed | flint_pxd_autogen/autogen.py:85-86 | the comprehension yields, in this order, ` in,`→` input,`, ` lambda,`→` lmbda,`, ` iter,`→` it,`, then the same three for ` {})`, `*{},` and `*{})`: the pattern varies slowest |
| Normalizer.RenamesNoOverlap | flint_pxd_autogen/autogen.py:85-88 | no replacement text of the twelve renamings can help form any of the twelve reserved forms |
| Normalizer.TypeFixesApplied | flint_pxd_autogen/autogen.py:81-83 | the type fixes are `(void)`→`()` followed by ` enum `→` `, in that order |
| Normalizer.CleanSignature | flint_pxd_autogen/autogen.py:80-90 | one fragment after the two type fixes and then the twelve renamings; the lemmas below (`CleanSignatureNoVoid`, `CleanSignatureRenamesAll`, `CleanSignatureKeepsParens`, `CleanSignatureUnchanged`, `RenamesReservedParameter`, `KeepsLongerName`) state what it does |
| Normalizer.CleanSignatureNoVoid | flint_pxd_autogen/autogen.py:81-90 | a cleaned fragment never contains `(void)` |
| Normalizer.CleanSignatureRenamesAll | flint_pxd_autogen/autogen.py:85-90 | none of ` in,` ` in)` `*in,` `*in)` and the same for `lambda` and `iter` survives cleaning |
| Normalizer.CleanSignatureNoVaList | flint_pxd_autogen/autogen.py:107-117 | cleaning never creates `va_list `: a fragment the screening loop kept is still free of it after the fourteen rewrites |
| Normalizer.CleanSignatureKeepsParens | flint_pxd_autogen/autogen.py:78-90 | cleaning keeps both parentheses of a fragment that had them |
| Normalizer.CleanSignatureUnchanged | flint_pxd_autogen/autogen.py:78-90 | a fragment containing none of the fourteen patterns is left as it is |
| Normalizer.RenamesReservedParameter | flint_pxd_autogen/autogen.py:85-90 | a parameter named `in` is renamed: `int foo(int in)` is cleaned to `int foo(int input)` |
| Normalizer.KeepsLongerName | flint_pxd_autogen/autogen.py:85-90 | only a whole reserved name followed by `,` or `)` is renamed: `int foo(int inx)` is left as it is |
| Normalizer.DropTrailingEmpty | flint_pxd_autogen/autogen.py:69-71 | the result is a prefix of the documentation, does not end with an empty line, and only empty lines were removed |
| Normalizer.FixChoose | flint_pxd_autogen/autogen.py:75 | the rewrite of one documentation line; `FixChooseRewrites` states that the escape becomes `choose ` |
| Normalizer.FixChooseRewrites | flint_pxd_autogen/autogen.py:75 | in a line whose first `\choose ` follows a prefix without backslashes, that escape becomes `choose `, the prefix is kept and the rest of the line is rewritten in turn |
| Normalizer.MapFixChoose | flint_pxd_autogen/autogen.py:73-76 | the `\choose ` rewrite applied to every documentation line in place: the number of lines is kept, and a line without `\choose ` is left as it is |
| Normalizer.CleanDocLines | flint_pxd_autogen/autogen.py:68-76 | the documentation after `clean_doc`: trailing empty lines dropped, then every line rewritten; `DropTrailingEmpty`, `MapFixChoose`, `CleanDocRewritesChoose` and `CleanDocKeepsNonEmpty` state its properties |
| Normalizer.CleanDocRewritesChoose | flint_pxd_autogen/autogen.py:68-76 | every line kept by `clean_doc` has its `\choose ` escape rewritten to `choose ` in place, when no backslash comes earlier in the line |
| Normalizer.CleanDocKeepsNonEmpty | flint_pxd_autogen/autogen.py:68-76 | documentation whose lines are all non-empty loses no line to `clean_doc`, and its lines stay non-empty |
| ExtractorModel.Initial | flint_pxd_autogen/autogen.py:38-49 | the initial state is legal and its empty dictionary is well ordered |
| ExtractorModel.AfterUpdateSection | flint_pxd_autogen/autogen.py:62-66 | the state `update_section` leaves; `UpdateSectionAppends` and `UpdateSectionInv` state it |
| ExtractorModel.AfterCleanDoc | flint_pxd_autogen/autogen.py:68-76 | the state `clean_doc` leaves: only `doc` changes, to `CleanDocLines` of it; `Autogen.Extractor.CleanDoc` is proved to reach it |
| ExtractorModel.AfterCleanSignatures | flint_pxd_autogen/autogen.py:78-90 | the state `clean_signatures` leaves: in a function or macro state every fragment is cleaned in place, otherwise nothing changes; `Autogen.Extractor.CleanSignatures` is proved to reach it |
| ExtractorModel.AfterAddFunction | flint_pxd_autogen/autogen.py:104-119 | the state `add_function` leaves, or its error; `AddFunctionEmits` and `AddFunctionWellFormed` state it |
| ExtractorModel.AfterAddDeclaration | flint_pxd_autogen/autogen.py:92-102 | the state `add_declaration` leaves, or its error; `AddDeclarationResets`, `MacroAndTypeEmitNothing` and `AddDeclarationInv` state it |
| ExtractorModel.AfterProcessLine | flint_pxd_autogen/autogen.py:133-206 | `process_line` returns 0 exactly at the end of the input, and then changes nothing; otherwise, unless it raises, it advances `i` by one or two without passing the end |
| ExtractorModel.AfterLine | flint_pxd_autogen/autogen.py:139-204 | each branch that does not raise consumes one line, or two when a following line exists (the header branch) |
| ExtractorModel.AfterMarker | flint_pxd_autogen/autogen.py:140-153 | a marker line that does not raise consumes exactly one line |
| ExtractorModel.AfterSignatureLine | flint_pxd_autogen/autogen.py:161-186 | a signature-block line that does not raise consumes exactly one line |
| ExtractorModel.AfterDocLine | flint_pxd_autogen/autogen.py:187-192 | a documentation line; `DocumentationLine` and `DocLineInv` state its effect |
| ExtractorModel.AfterLoop | flint_pxd_autogen/autogen.py:52-53 | the loop of `run`; `LoopInv` states that it consumes every line and keeps the invariant |
| ExtractorModel.AfterRun | flint_pxd_autogen/autogen.py:51-60 | `run`; `RunFinishes` and `RunFlushes` state its final state |
| ExtractorModel.AfterExtractFunctions | flint_pxd_autogen/autogen.py:209-217 | `extract_functions`; `ExtractWellFormed` states the shape of its result and its errors |
| ExtractorProperties.InitialInv | flint_pxd_autogen/autogen.py:38-44 | the initial state satisfies the invariant, with `section` `None` |
| ExtractorProperties.UpdateSectionAppends | flint_pxd_autogen/autogen.py:62-66 | the pending functions are appended to the current section's list (created empty if new, placed last in key order); other lists are untouched; `functions` is emptied; nothing else changes |
| ExtractorProperties.UpdateSectionInv | flint_pxd_autogen/autogen.py:62-66 | appending well-formed functions keeps the dictionary ordered, keyed by the current section and well formed |
| ExtractorProperties.AddFunctionEmits | flint_pxd_autogen/autogen.py:104-119 | `add_function` succeeds iff every fragment has both parentheses; on failure it raises with the first bad one; on success it appends exactly one declaration, whose signatures are the cleaned non-`va_list` fragments and whose doc is the cleaned documentation, and logs one warning per dropped fragment |
| ExtractorProperties.AddFunctionWellFormed | flint_pxd_autogen/autogen.py:104-119 | the emitted declaration has only cleaned signatures, each with both parentheses and none containing `va_list `, `(void)` or a reserved form, and non-empty doc lines; earlier entries are kept |
| ExtractorProperties.AddDeclarationResets | flint_pxd_autogen/autogen.py:92-102 | on success `signatures` and `doc` are empty and the state is `NONE`; `content`, `section` and `i` are unchanged; `functions` gains one entry for a function and none otherwise; only a function can make it raise |
| ExtractorProperties.MacroAndTypeEmitNothing | flint_pxd_autogen/autogen.py:92-102 | finishing a macro or type only resets `signatures`, `doc` and the state |
| ExtractorProperties.AddDeclarationInv | flint_pxd_autogen/autogen.py:92-102 | `add_declaration` keeps the invariant |
| ExtractorProperties.IllegalStateRaises | flint_pxd_autogen/autogen.py:136-137 | with lines left, `process_line` raises the illegal-state `RuntimeError` exactly when two or more kind bits are set |
| ExtractorProperties.MarkerRule | flint_pxd_autogen/autogen.py:141-146 | a marker finishes the pending declaration; it raises `IndexError` when nothing follows the marker; otherwise the new state is the marker's kind, the only fragment is the stripped rest of the line, and a warning is logged when the rest does not start with a blank |
| ExtractorProperties.DeclarationMarker | flint_pxd_autogen/autogen.py:140-153 | the same rule, reached through `process_line` for `.. function::` (column 13) and `.. macro::` (column 10) |
| ExtractorProperties.TypeMarker | flint_pxd_autogen/autogen.py:154-160 | `.. type::` finishes the pending declaration and enters `TYPE` with nothing pending and `content` unchanged |
| ExtractorProperties.SignatureLineRule | flint_pxd_autogen/autogen.py:162-173 | a line of `n` blanks plus more adds its stripped tail unless that is blank; a blank line adds `DOC`; any other line raises `ValueError` with that line; exactly these cases |
| ExtractorProperties.SignatureBlockLine | flint_pxd_autogen/autogen.py:161-186 | the same rule, reached through `process_line` in state exactly `FUNCTION` (14 columns) or exactly `MACRO` (10 columns) |
| ExtractorProperties.DocumentationLine | flint_pxd_autogen/autogen.py:187-192 | with `DOC` set, a line indented by four blanks adds its stripped text to `doc` unless that text is empty |
| ExtractorProperties.SectionHeader | flint_pxd_autogen/autogen.py:193-199 | a line underlined by `----` finishes the pending declaration, appends the pending functions to the current section's list, skips two lines and leaves `section` as it was |
| ExtractorProperties.OtherLine | flint_pxd_autogen/autogen.py:200-204 | an empty line is skipped; any other line finishes the pending declaration and is consumed |
| ExtractorProperties.FinishInv | flint_pxd_autogen/autogen.py:195-197 | finishing a declaration and then flushing keeps the invariant and only adds to `content`; it can only raise the missing-parenthesis error |
| ExtractorProperties.MarkerInv | flint_pxd_autogen/autogen.py:140-153 | the marker branches keep the invariant, `section` and `content` |
| ExtractorProperties.SignatureLineInv | flint_pxd_autogen/autogen.py:161-186 | the signature-block branches keep the invariant, `section` and `content` |
| ExtractorProperties.DocLineInv | flint_pxd_autogen/autogen.py:187-192 | the documentation branch keeps the invariant, `section` and `content` |
| ExtractorProperties.TypeLineInv | flint_pxd_autogen/autogen.py:154-160 | the type branch keeps the invariant and `section`, and only adds to `content` |
| ExtractorProperties.HeaderInv | flint_pxd_autogen/autogen.py:193-199 | the header branch keeps the invariant and `section`, and only adds to `content` |
| ExtractorProperties.LastBranchesInv | flint_pxd_autogen/autogen.py:193-204 | the header, empty-line and other-line branches keep the invariant and `section`, and only add to `content` |
| ExtractorProperties.LineInv | flint_pxd_autogen/autogen.py:139-204 | every branch keeps the invariant (a legal state, non-empty doc lines, well-formed functions, a well-formed dictionary keyed by `section`) and only adds to `content`; it raises only errors of the line itself |
| ExtractorProperties.ProcessLineInv | flint_pxd_autogen/autogen.py:129-206 | `process_line` keeps the invariant, and so never reaches an illegal state |
| ExtractorProperties.LoopInv | flint_pxd_autogen/autogen.py:52-53 | from a state satisfying the invariant, the loop consumes every line, keeps the invariant and `section`, and only adds to `content` |
| ExtractorProperties.RunFinishes | flint_pxd_autogen/autogen.py:51-60 | `run` ends in `NONE` with nothing pending in `functions`, every line consumed and the invariant kept |
| ExtractorProperties.RunFlushes | flint_pxd_autogen/autogen.py:54-59 | at the end of the input, a function still open and everything pending are appended, in order, to the current section's list |
| ExtractorProperties.OneKey | flint_pxd_autogen/autogen.py:63-64 | a dictionary whose every key is the same section has at most one entry |
| ExtractorProperties.ExtractWellFormed | flint_pxd_autogen/autogen.py:209-217 | the result is a dictionary with at most the key `None`, whose declarations are all well formed (no signature contains `va_list `, `(void)` or a reserved form); a name without `.rst` raises `ValueError`; any other error comes from a line of the file, never from an illegal state |
| Autogen.Extractor.constructor | flint_pxd_autogen/autogen.py:33-49 | the attributes start as `__init__` sets them |
| Autogen.Extractor.UpdateSection | flint_pxd_autogen/autogen.py:62-66 | the object ends in the state `update_section` describes |
| Autogen.Extractor.CleanDoc | flint_pxd_autogen/autogen.py:68-76 | popping the trailing empty lines, then rewriting each line in place, yields the cleaned documentation |
| Autogen.Extractor.CleanSignatures | flint_pxd_autogen/autogen.py:78-90 | in a function or macro state every fragment is replaced by its cleaned form; in any other state nothing changes |
| Autogen.Extractor.Rewrite | flint_pxd_autogen/autogen.py:81-88 | one fragment after the type fixes and then the twelve renamings |
| Autogen.Extractor.ReplaceInTurn | flint_pxd_autogen/autogen.py:82-83 | the loop over a replacement table applies each entry in turn |
| Autogen.Extractor.ScreenFragments | flint_pxd_autogen/autogen.py:108-115 | the loop raises with the first fragment lacking a parenthesis; otherwise it returns the kept fragments and one warning per dropped fragment |
| Autogen.Extractor.AddFunction | flint_pxd_autogen/autogen.py:104-119 | the object ends in the state `add_function` describes, or the method raises the same error |
| Autogen.Extractor.AddDeclaration | flint_pxd_autogen/autogen.py:92-102 | the object ends in the state `add_declaration` describes, or the method raises the same error |
| Autogen.Extractor.ProcessLine | flint_pxd_autogen/autogen.py:129-206 | the return value and the new state are those of `process_line`, or the method raises the same error |
| Autogen.Extractor.OpenDeclaration | flint_pxd_autogen/autogen.py:140-153 | the marker branches, as `AfterMarker` describes them |
| Autogen.Extractor.SignatureLine | flint_pxd_autogen/autogen.py:161-186 | the signature-block branches, as `AfterSignatureLine` describes them |
| Autogen.Extractor.DocLine | flint_pxd_autogen/autogen.py:187-192 | the documentation branch |
| Autogen.Extractor.Run | flint_pxd_autogen/autogen.py:51-60 | the object ends in the state `run` describes, or the method raises the same error; `process_line` is called at most once per remaining line, plus once more |
| Autogen.ExtractFunctions | flint_pxd_autogen/autogen.py:209-217 | returns the `content` of an extractor run over the lines; it has at most the key `None` and only well-formed declarations; it raises `ValueError` exactly for a name without `.rst`, and otherwise only errors of the lines |

## Left out

- Reading the file in `__init__` (`autogen.py:46-48`) is I/O. The lines,
  already split, are given to the constructor instead.
- `write_flint_cython_headers`, `env.py` and the top-level `autogen.py`
  script are directory listing, file writing and path configuration. They
  are not part of this model.
- `print` is modelled only as appending to the `warnings` log.
- Autogen.Extractor.constructor: requires a name ending in `.rst` rather
  than raising `ValueError`. A constructor cannot return an error, so the
  `ValueError` path is modelled in `ExtractFunctions`, which checks the name
  before constructing.
- Autogen.Extractor.AddFunction: when it raises, the attributes changed
  before the exception (the cleaned `doc`) are not stated. In the source an
  exception ends the extraction, and the object is never used again.
- Autogen.Extractor.AddDeclaration: when it raises, only the error is
  stated, for the same reason.
- Autogen.Extractor.ProcessLine: when it raises, only the error is stated.
- Autogen.Extractor.OpenDeclaration: when it raises, only the error is
  stated.
- Autogen.Extractor.SignatureLine: when it raises, only the error is stated.
- Autogen.Extractor.Run: when it raises, only the error is stated.
- The `filename` attribute is kept, but nothing reads it after the check.
- `add_macro` and `add_type` (`autogen.py:121-127`) do nothing. They are
  modelled as methods with empty bodies and no contract.
- Normalizer.FixChooseRewrites: the rewrite is stated for an escape with no
  backslash before it. `\choose ` is replaced once, left to right, as Python
  does, so a `\\choose ` (two backslashes) still contains `\choose ` after
  cleaning. No lemma claims the escape is gone from every line.

=== FILE: Autogen.dfy ===
/** The `Extractor` class: a line-by-line state machine over the lines of a
    FLINT `.rst` documentation file, updating its attributes in place. Each
    method is proved to leave the object in the state the corresponding
    function of `ExtractorModel` describes, or to raise the same error. */
module Autogen {
  import opened Text
  import opened Normalizer
  import opened ExtractorModel
  import opened ExtractorProperties

  /** What a method returns: `Ok(())`, or the exception it raises. */
  type Status = Result<()>

  class Extractor {
    const filename: string
    const lines: seq<string>
    var state: bv8
    var section: SectionKey
    var content: Sections
    var functions: seq<Declaration>
    var signatures: seq<string>
    var doc: seq<string>
    var i: nat
    var warnings: seq<Warning>

    /** The attributes as a value. */
    ghost function Snap(): Parser
      reads this
    {
      Parser(state, section, content, functions, signatures, doc, i, warnings)
    }

    /** The method raised what `expected` raises, or completed and left the
        attributes as `expected` has them. */
    ghost predicate Reports(r: Status, expected: Result<Parser>)
      reads this
    {
      (r.Ok? <==> expected.Ok?) && (r.Err? ==> r.error == expected.error)
      && (expected.Ok? ==> Snap() == expected.value)
    }

    /** `__init__`, given the lines of the file. */
    constructor (filename: string, lines: seq<string>)
      requires EndsWith(filename, ".rst")
      ensures this.filename == filename && this.lines == lines
      ensures Snap() == Initial()
    {
      this.filename := filename;
      this.lines := lines;
      state := NONE;
      section := None;
      content := Sections([], map[]);
      functions := [];
      signatures := [];
      doc := [];
      i := 0;
      warnings := [];
    }

    method UpdateSection()
      modifies this
      ensures Snap() == AfterUpdateSection(old(Snap()))
    {
      if section !in content.lists {
        content := Sections(content.order + [section], content.lists[section := []]);
      }
      content := Sections(content.order, content.lists[section := content.lists[section] + functions]);
      functions := [];
    }

    method CleanDoc()
      modifies this
      ensures Snap() == AfterCleanDoc(old(Snap()))
    {
      while doc != [] && doc[|doc| - 1] == ""
        invariant DropTrailingEmpty(doc) == DropTrailingEmpty(old(doc))
        invariant Snap() == old(Snap()).(doc := doc)
        decreases |doc|
      {
        doc := doc[..|doc| - 1];
      }
      ghost var trimmed := doc;
      assert trimmed == DropTrailingEmpty(old(doc));
      var k := 0;
      while k < |doc|
        invariant 0 <= k <= |doc| == |trimmed|
        invariant forall j :: 0 <= j < k ==> doc[j] == FixChoose(trimmed[j])
        invariant forall j :: k <= j < |doc| ==> doc[j] == trimmed[j]
        invariant Snap() == old(Snap()).(doc := doc)
      {
        doc := doc[k := ReplaceAll(doc[k], "\\choose ", "choose ")];
        k := k + 1;
      }
    }

    method CleanSignatures()
      modifies this
      ensures Snap() == AfterCleanSignatures(old(Snap()))
    {
      if state & FUNCTION_DECLARATION != 0 || state & MACRO_DECLARATION != 0 {
        var cleaned := signatures;
        var k := 0;
        while k < |cleaned|
          invariant 0 <= k <= |cleaned| == |signatures|
          invariant forall j :: 0 <= j < k ==> cleaned[j] == CleanSignature(signatures[j])
          invariant forall j :: k <= j < |cleaned| ==> cleaned[j] == signatures[j]
          modifies {}
        {
          var signature := Rewrite(cleaned[k]);
          cleaned := cleaned[k := signature];
          k := k + 1;
        }
        assert cleaned == CleanAll(signatures);
        signatures := cleaned;
      }
    }

    /** The rewrites `clean_signatures` applies to one fragment: first the
        type fixes, then the twelve renamings. */
    static method Rewrite(signature: string) returns (t: string)
      ensures t == CleanSignature(signature)
    {
      RenamesAreValid();
      t := ReplaceInTurn(signature, TypeFixes);
      t := ReplaceInTurn(t, Renames);
    }

    /** One `for bad, good in table` loop of `clean_signatures`: every
        occurrence of each pattern is replaced, one entry after the other. */
    static method ReplaceInTurn(signature: string, table: seq<(string, string)>) returns (t: string)
      requires ValidTable(table)
      ensures t == ReplaceEach(signature, table)
    {
      t := signature;
      var k := 0;
      while k < |table|
        invariant 0 <= k <= |table| && ValidTable(table[..k])
        invariant t == ReplaceEach(signature, table[..k])
      {
        ReplaceEachStep(signature, table, k);
        t := ReplaceAll(t, table[k].0, table[k].1);
        k := k + 1;
      }
      assert table[..k] == table;
    }

    method AddFunction() returns (r: Status)
      modifies this
      ensures Reports(r, AfterAddFunction(old(Snap())))
    {
      CleanDoc();
      var kept, notes, bad := ScreenFragments(signatures);
      if bad.Some? {
        return Err(MissingParenthesis(bad.value));
      }
      warnings := warnings + notes;
      signatures := kept;
      CleanSignatures();
      functions := functions + [Declaration(signatures, doc)];
      r := Ok(());
    }

    /** The loop of `add_function` over the fragments: it raises at the first
        fragment without both parentheses (`bad`), warns about and drops each
        fragment containing `va_list `, and keeps the others in order. */
    static method ScreenFragments(signatures: seq<string>)
      returns (kept: seq<string>, notes: seq<Warning>, bad: Option<string>)
      ensures bad == Screen(signatures).bad
      ensures bad == None ==>
        kept == Screen(signatures).kept && notes == VaListWarnings(Screen(signatures).dropped)
    {
      kept := [];
      notes := [];
      var k := 0;
      while k < |signatures|
        invariant 0 <= k <= |signatures|
        invariant Screen(signatures[..k]).bad == None && Screen(signatures[..k]).kept == kept
        invariant notes == VaListWarnings(Screen(signatures[..k]).dropped)
      {
        var signature := signatures[k];
        ScreenStep(signatures, k);
        if !HasParens(signature) {
          ScreenStopsAtBad(signatures, k + 1);
          return kept, notes, Some(signature);
        } else if IsVaList(signature) {
          ghost var dropped := Screen(signatures[..k]).dropped;
          assert VaListWarnings(dropped + [signature]) == notes + [VaListUnsupported(signature)];
          notes := notes + [VaListUnsupported(signature)];
        } else {
          kept := kept + [signature];
        }
        k := k + 1;
      }
      assert signatures[..k] == signatures;
      bad := None;
    }

    /** Macros are not extracted. */
    method AddMacro()
    {
    }

    /** Types are not extracted. */
    method AddType()
    {
    }

    method AddDeclaration() returns (r: Status)
      modifies this
      ensures Reports(r, AfterAddDeclaration(old(Snap())))
    {
      if state & FUNCTION_DECLARATION != 0 {
        r := AddFunction();
        if r.Err? {
          return;
        }
      } else if state & MACRO_DECLARATION != 0 {
        AddMacro();
      } else if state & TYPE_DECLARATION != 0 {
        AddType();
      }
      signatures := [];
      doc := [];
      state := NONE;
      r := Ok(());
    }

    /** `process_line`: the result is the value it returns (`true` for 1). */
    method ProcessLine() returns (r: Result<bool>)
      modifies this
      ensures var expected := AfterProcessLine(lines, old(Snap()));
        (r.Ok? <==> expected.Ok?) && (r.Err? ==> r.error == expected.error)
        && (expected.Ok? ==> r.value == expected.value.more && Snap() == expected.value.p)
    {
      if i >= |lines| {
        return Ok(false);
      }
      if KindCount(state) > 1 {
        return Err(IllegalState(state, i));
      }
      var line := lines[i];
      var done: Status;
      if StartsWith(line, ".. function::") {
        done := OpenDeclaration(line, 13, FUNCTION_DECLARATION);
      } else if StartsWith(line, ".. macro::") {
        done := OpenDeclaration(line, 10, MACRO_DECLARATION);
      } else if StartsWith(line, ".. type::") {
        done := AddDeclaration();
        if done.Ok? {
          state := TYPE_DECLARATION;
          i := i + 1;
        }
      } else if state == FUNCTION_DECLARATION {
        done := SignatureLine(line, 14);
      } else if state == MACRO_DECLARATION {
        done := SignatureLine(line, 10);
      } else if state & DOC != 0 && StartsWith(line, "    ") {
        DocLine(line);
        done := Ok(());
      } else if i + 1 < |lines| && StartsWith(lines[i + 1], "----") {
        done := AddDeclaration();
        if done.Ok? {
          if functions != [] {
            UpdateSection();
          }
          // The header text goes to a local variable only: `section` is kept.
          i := i + 2;
        }
      } else if line == "" {
        i := i + 1;
        done := Ok(());
      } else {
        done := AddDeclaration();
        if done.Ok? {
          i := i + 1;
        }
      }
      if done.Err? {
        return Err(done.error);
      }
      return Ok(true);
    }

    /** The branches of `process_line` for a `.. function::` (`n == 13`) or
        `.. macro::` (`n == 10`) line. */
    method OpenDeclaration(line: string, n: nat, kind: bv8) returns (r: Status)
      modifies this
      ensures Reports(r, AfterMarker(old(Snap()), line, n, kind))
    {
      ghost var p := Snap();
      r := AddDeclaration();
      if r.Err? {
        return;
      }
      ghost var q := Snap();
      assert AfterAddDeclaration(p) == Ok(q);
      if |line| <= n {
        return Err(MarkerWithoutText(line));
      }
      if line[n] != ' ' {
        warnings := warnings + [NoSpace(line)];
      }
      signatures := signatures + [Strip(line[n..])];
      state := kind;
      i := i + 1;
    }

    /** The branches of `process_line` inside a function (`n == 14`) or a
        macro (`n == 10`) signature block. */
    method SignatureLine(line: string, n: nat) returns (r: Status)
      modifies this
      ensures Reports(r, AfterSignatureLine(old(Snap()), line, n))
    {
      if |line| > n && StartsWith(line, Spaces(n)) {
        var tail := Strip(line[n..]);
        if tail != "" {
          signatures := signatures + [tail];
        }
        i := i + 1;
      } else if Strip(line) == "" {
        state := state | DOC;
        i := i + 1;
      } else {
        return Err(UnexpectedLine(line));
      }
      r := Ok(());
    }

    /** The branch of `process_line` for a documentation line. */
    method DocLine(line: string)
      modifies this
      ensures Snap() == AfterDocLine(old(Snap()), line)
    {
      var text := Strip(line);
      if text != "" {
        doc := doc + [text];
      }
      i := i + 1;
    }

    /** `run`. `calls` counts the calls of `process_line`: at most one per
        remaining line, plus the final one that returns 0. */
    method Run() returns (r: Status, ghost calls: nat)
      modifies this
      ensures Reports(r, AfterRun(lines, old(Snap())))
      ensures old(i) <= |lines| ==> calls <= |lines| - old(i) + 1
    {
      var more := true;
      calls := 0;
      while more
        invariant more ==> AfterLoop(lines, old(Snap())) == AfterLoop(lines, Snap())
        invariant !more ==> AfterLoop(lines, old(Snap())) == Ok(Snap())
        invariant old(i) <= |lines| ==> i <= |lines| && calls <= i - old(i) + (if more then 0 else 1)
        decreases (if more then 1 else 0) + (if i <= |lines| then |lines| - i else 0)
      {
        var step := ProcessLine();
        calls := calls + 1;
        if step.Err? {
          return Err(step.error), calls;
        }
        more := step.value;
      }
      if state & FUNCTION_DECLARATION != 0 {
        r := AddFunction();
        if r.Err? {
          return;
        }
      }
      if state & MACRO_DECLARATION != 0 {
        AddMacro();
      }
      if functions != [] {
        UpdateSection();
      }
      state := NONE;
      r := Ok(());
    }
  }

  /** `extract_functions`, given the lines of the file: the `content` of an
      extractor that has run over them. The dictionary has at most one key,
      `None`, and every declaration in it is well formed. */
  method ExtractFunctions(filename: string, lines: seq<string>) returns (r: Result<Sections>)
    ensures r == AfterExtractFunctions(filename, lines)
    ensures r.Ok? ==> ContentOf(r.value, None) && |r.value.order| <= 1
    ensures r.Err? ==> (ParseError(r.error) <==> EndsWith(filename, ".rst"))
  {
    ExtractWellFormed(filename, lines);
    if !EndsWith(filename, ".rst") {
      return Err(NotRstFile(filename));
    }
    var extractor := new Extractor(filename, lines);
    var done, _ := extractor.Run();
    if done.Err? {
      return Err(done.error);
    }
    return Ok(extractor.content);
  }
}

=== FILE: ExtractorModel.dfy ===
/** The extractor's state and, for each method of the `Extractor` class, a
    function giving the state that method leaves behind (or the exception it
    raises). The class in `Autogen.dfy` is proved to compute these
    functions; the lemmas here state what the source promises about them. */
module ExtractorModel {
  import opened Text
  import opened Normalizer

  /** A section key: Python's `None` before any header, else the header text. */
  type SectionKey = Option<string>

  /** One emitted function: `(tuple(signatures), tuple(doc))`. */
  datatype Declaration = Declaration(signatures: seq<string>, doc: seq<string>)

  /** The `content` dictionary. Python dictionaries remember insertion order,
      so the keys are kept in `order` as well as in the map. */
  datatype Sections = Sections(order: seq<SectionKey>, lists: map<SectionKey, seq<Declaration>>)

  /** The keys of `order` are distinct and are exactly the keys of `lists`. */
  predicate OrderedKeys(c: Sections)
  {
    (forall k, m :: 0 <= k < m < |c.order| ==> c.order[k] != c.order[m])
    && c.lists.Keys == set k | k in c.order
  }

  /** The messages `print`ed by the source, kept as a log. */
  datatype Warning =
    | NoSpace(line: string)                // no blank after a marker
    | VaListUnsupported(signature: string)  // a `va_list ` fragment dropped

  /** The exceptions the source raises. */
  datatype Error =
    | NotRstFile(filename: string)          // ValueError in `__init__`
    | IllegalState(state: bv8, index: nat)  // RuntimeError: two kind bits set
    | MissingParenthesis(signature: string) // RuntimeError in `add_function`
    | MarkerWithoutText(line: string)       // IndexError on `line[13]` or `line[10]`
    | UnexpectedLine(line: string)          // ValueError inside a signature block

  datatype Result<+T> = Ok(value: T) | Err(error: Error) {
    predicate IsFailure() { Err? }
    function PropagateFailure<U>(): Result<U> requires Err? { Err(error) }
    function Extract(): T requires Ok? { value }
  }

  // The state bitmask.
  const NONE: bv8 := 0
  const DOC: bv8 := 1
  const FUNCTION_DECLARATION: bv8 := 2
  const MACRO_DECLARATION: bv8 := 4
  const TYPE_DECLARATION: bv8 := 8

  /** How many of the three declaration-kind bits are set. */
  function KindCount(state: bv8): nat
  {
    (if state & FUNCTION_DECLARATION != 0 then 1 else 0)
    + (if state & MACRO_DECLARATION != 0 then 1 else 0)
    + (if state & TYPE_DECLARATION != 0 then 1 else 0)
  }

  /** The states the extractor can be in: idle, inside exactly one kind of
      declaration, or in the documentation of a function or macro. */
  predicate LegalState(state: bv8)
  {
    state == NONE || state == FUNCTION_DECLARATION || state == MACRO_DECLARATION
    || state == TYPE_DECLARATION || state == FUNCTION_DECLARATION | DOC
    || state == MACRO_DECLARATION | DOC
  }

  /** Every attribute of an `Extractor` except the file name and the lines. */
  datatype Parser = Parser(
    state: bv8,
    section: SectionKey,
    content: Sections,
    functions: seq<Declaration>,
    signatures: seq<string>,
    doc: seq<string>,
    i: nat,
    warnings: seq<Warning>)

  /** The attributes as `__init__` sets them. */
  function Initial(): (p: Parser)
    ensures LegalState(p.state) && OrderedKeys(p.content)
  {
    Parser(NONE, None, Sections([], map[]), [], [], [], 0, [])
  }

  // ---------------------------------------------------------------------------
  // The methods, one function each

  /** `update_section`: the pending functions are appended to the list of the
      current section (created empty first if the key is new), and cleared. */
  function AfterUpdateSection(p: Parser): Parser
  {
    var key := p.section;
    var c := p.content;
    var content :=
      if key in c.lists then Sections(c.order, c.lists[key := c.lists[key] + p.functions])
      else Sections(c.order + [key], c.lists[key := [] + p.functions]);
    p.(content := content, functions := [])
  }

  /** `clean_doc`. */
  function AfterCleanDoc(p: Parser): Parser
  {
    p.(doc := CleanDocLines(p.doc))
  }

  /** Whether `clean_signatures` does anything in this state. */
  predicate CleansSignatures(state: bv8)
  {
    state & FUNCTION_DECLARATION != 0 || state & MACRO_DECLARATION != 0
  }

  /** Every fragment cleaned, in its own position. */
  function CleanAll(sigs: seq<string>): seq<string>
  {
    seq(|sigs|, k requires 0 <= k < |sigs| => CleanSignature(sigs[k]))
  }

  /** `clean_signatures`. */
  function AfterCleanSignatures(p: Parser): Parser
  {
    if CleansSignatures(p.state) then p.(signatures := CleanAll(p.signatures)) else p
  }

  /** One warning per dropped fragment, in order. */
  function VaListWarnings(dropped: seq<string>): seq<Warning>
  {
    seq(|dropped|, k requires 0 <= k < |dropped| => VaListUnsupported(dropped[k]))
  }

  /** `add_function`: clean the documentation, screen the fragments (raising
      at the first one without both parentheses, dropping `va_list ` ones),
      clean the survivors and append the declaration to `functions`. */
  function AfterAddFunction(p: Parser): Result<Parser>
  {
    var q := AfterCleanDoc(p);
    var screened := Screen(q.signatures);
    if screened.bad.Some? then Err(MissingParenthesis(screened.bad.value))
    else
      var q2 := AfterCleanSignatures(q.(signatures := screened.kept,
                                        warnings := q.warnings + VaListWarnings(screened.dropped)));
      Ok(q2.(functions := q2.functions + [Declaration(q2.signatures, q2.doc)]))
  }

  /** `add_declaration`: finish the pending declaration (only a function one
      emits anything; `add_macro` and `add_type` do nothing), then reset. */
  function AfterAddDeclaration(p: Parser): Result<Parser>
  {
    var q :-
      if p.state & FUNCTION_DECLARATION != 0 then AfterAddFunction(p)
      else Ok(p);
    Ok(q.(signatures := [], doc := [], state := NONE))
  }

  /** The warning printed when a marker is not followed by a blank. */
  function NoSpaceWarning(line: string, n: nat): seq<Warning>
    requires n < |line|
  {
    if line[n] != ' ' then [NoSpace(line)] else []
  }

  /** What `process_line` leaves behind and whether it returned 1. */
  datatype Step = Step(p: Parser, more: bool)

  /** `process_line`. It returns 0 exactly at the end of the input, and
      otherwise moves on by one line, or by two past a section header, never
      beyond the end of the input. */
  function AfterProcessLine(lines: seq<string>, p: Parser): (r: Result<Step>)
    ensures r.Ok? ==> (r.value.more <==> p.i < |lines|)
    ensures r.Ok? && !r.value.more ==> r.value.p == p
    ensures r.Ok? && r.value.more ==> r.value.p.i == p.i + 1 || r.value.p.i == p.i + 2
    ensures r.Ok? && r.value.more ==> r.value.p.i <= |lines|
  {
    if p.i >= |lines| then Ok(Step(p, false))
    else if KindCount(p.state) > 1 then Err(IllegalState(p.state, p.i))
    else
      var q :- AfterLine(lines, p);
      Ok(Step(q, true))
  }

  /** The branches of `process_line` once the index and the state are known
      to be valid, in the order the source tries them. */
  function AfterLine(lines: seq<string>, p: Parser): (r: Result<Parser>)
    requires p.i < |lines|
    ensures r.Ok? ==> r.value.i == p.i + 1 || (r.value.i == p.i + 2 && p.i + 1 < |lines|)
  {
    var line := lines[p.i];
    if StartsWith(line, ".. function::") then AfterMarker(p, line, 13, FUNCTION_DECLARATION)
    else if StartsWith(line, ".. macro::") then AfterMarker(p, line, 10, MACRO_DECLARATION)
    else if StartsWith(line, ".. type::") then
      var q :- AfterAddDeclaration(p);
      Ok(q.(state := TYPE_DECLARATION, i := q.i + 1))
    else if p.state == FUNCTION_DECLARATION then AfterSignatureLine(p, line, 14)
    else if p.state == MACRO_DECLARATION then AfterSignatureLine(p, line, 10)
    else if p.state & DOC != 0 && StartsWith(line, "    ") then Ok(AfterDocLine(p, line))
    else if p.i + 1 < |lines| && StartsWith(lines[p.i + 1], "----") then
      var q :- AfterAddDeclaration(p);
      var q2 := if q.functions != [] then AfterUpdateSection(q) else q;
      // The header text is bound to a local name only: `section` stays as it was.
      Ok(q2.(i := q2.i + 2))
    else if line == "" then Ok(p.(i := p.i + 1))
    else
      var q :- AfterAddDeclaration(p);
      Ok(q.(i := q.i + 1))
  }

  /** A `.. function::` (`n == 13`) or `.. macro::` (`n == 10`) line. */
  function AfterMarker(p: Parser, line: string, n: nat, kind: bv8): (r: Result<Parser>)
    ensures r.Ok? ==> r.value.i == p.i + 1
  {
    var q :- AfterAddDeclaration(p);
    if |line| <= n then Err(MarkerWithoutText(line))
    else
      Ok(q.(warnings := q.warnings + NoSpaceWarning(line, n),
            signatures := q.signatures + [Strip(line[n..])],
            state := kind, i := q.i + 1))
  }

  /** A line inside a function (`n == 14`) or macro (`n == 10`) signature block. */
  function AfterSignatureLine(p: Parser, line: string, n: nat): (r: Result<Parser>)
    ensures r.Ok? ==> r.value.i == p.i + 1
  {
    if |line| > n && StartsWith(line, Spaces(n)) then
      var tail := Strip(line[n..]);
      Ok(p.(signatures := if tail != "" then p.signatures + [tail] else p.signatures, i := p.i + 1))
    else if Strip(line) == "" then Ok(p.(state := p.state | DOC, i := p.i + 1))
    else Err(UnexpectedLine(line))
  }

  /** An indented documentation line. */
  function AfterDocLine(p: Parser, line: string): (r: Parser)
  {
    var text := Strip(line);
    p.(doc := if text != "" then p.doc + [text] else p.doc, i := p.i + 1)
  }

  /** The loop of `run`: process lines until `process_line` reports the end
      of the input or raises. */
  function AfterLoop(lines: seq<string>, p: Parser): Result<Parser>
    decreases |lines| - p.i
  {
    var s :- AfterProcessLine(lines, p);
    if s.more then AfterLoop(lines, s.p) else Ok(s.p)
  }

  /** `run`: process every line, then finish a function still open, flush the
      pending functions and return to `NONE`. */
  function AfterRun(lines: seq<string>, p: Parser): Result<Parser>
  {
    var q :- AfterLoop(lines, p);
    var q1 :- if q.state & FUNCTION_DECLARATION != 0 then AfterAddFunction(q) else Ok(q);
    // `add_macro` does nothing.
    var q2 := if q1.functions != [] then AfterUpdateSection(q1) else q1;
    Ok(q2.(state := NONE))
  }

  /** `extract_functions`, with the lines of the file given. */
  function AfterExtractFunctions(filename: string, lines: seq<string>): Result<Sections>
  {
    if !EndsWith(filename, ".rst") then Err(NotRstFile(filename))
    else
      var p :- AfterRun(lines, Initial());
      Ok(p.content)
  }
}

=== FILE: ExtractorProperties.dfy ===
/** What the extractor promises, stated over the functions of `ExtractorModel`. */
module ExtractorProperties {
  import opened Text
  import opened Normalizer
  import opened ExtractorModel

  /** A signature as `add_function` emits it: it has both parentheses, no
      `va_list `, no `(void)` and none of the reserved parameter forms. */
  predicate Cleaned(s: string)
  {
    HasParens(s) && !IsVaList(s) && !Occurs(s, "(void)")
    && forall m :: 0 <= m < |Renames| ==> !Occurs(s, Renames[m].0)
  }

  predicate NonEmptyLines(doc: seq<string>)
  {
    forall k :: 0 <= k < |doc| ==> doc[k] != ""
  }

  predicate WellFormed(d: Declaration)
  {
    (forall k :: 0 <= k < |d.signatures| ==> Cleaned(d.signatures[k])) && NonEmptyLines(d.doc)
  }

  predicate AllWellFormed(ds: seq<Declaration>)
  {
    forall k :: 0 <= k < |ds| ==> WellFormed(ds[k])
  }

  /** `content` is an ordered dictionary whose keys are all `key` and whose
      declarations are well formed. */
  predicate ContentOf(c: Sections, key: SectionKey)
  {
    OrderedKeys(c)
    && (forall k :: k in c.lists ==> k == key && AllWellFormed(c.lists[k]))
  }

  /** The invariant of every state the extractor passes through. */
  predicate Inv(p: Parser)
  {
    LegalState(p.state) && NonEmptyLines(p.doc) && AllWellFormed(p.functions)
    && ContentOf(p.content, p.section)
  }

  /** `c2` extends `c1` the way updates of a Python dictionary of lists do:
      old keys keep their place and old lists are only appended to. */
  predicate Grows(c1: Sections, c2: Sections)
  {
    |c1.order| <= |c2.order| && c2.order[..|c1.order|] == c1.order
    && forall k :: k in c1.lists ==>
         (k in c2.lists && |c1.lists[k]| <= |c2.lists[k]| && c2.lists[k][..|c1.lists[k]|] == c1.lists[k])
  }

  lemma GrowsTransitive(c1: Sections, c2: Sections, c3: Sections)
    requires Grows(c1, c2) && Grows(c2, c3)
    ensures Grows(c1, c3)
  {
    assert c3.order[..|c1.order|] == c3.order[..|c2.order|][..|c1.order|];
    forall k | k in c1.lists
      ensures c3.lists[k][..|c1.lists[k]|] == c1.lists[k]
    {
      assert c3.lists[k][..|c1.lists[k]|] == c3.lists[k][..|c2.lists[k]|][..|c1.lists[k]|];
    }
  }

  lemma InitialInv()
    ensures Inv(Initial()) && Initial().section == None
  {
  }

  // ---------------------------------------------------------------------------
  // update_section

  /** The pending functions are appended to the current section's list (an
      existing list is extended, never replaced), every other list is left
      alone, a new key goes last, and `functions` is emptied. */
  lemma UpdateSectionAppends(p: Parser)
    ensures var c := AfterUpdateSection(p).content;
      p.section in c.lists
      && c.lists[p.section] == (if p.section in p.content.lists then p.content.lists[p.section] else []) + p.functions
      && (forall k :: k in p.content.lists && k != p.section ==> k in c.lists && c.lists[k] == p.content.lists[k])
      && c.order == (if p.section in p.content.lists then p.content.order else p.content.order + [p.section])
      && Grows(p.content, c)
    ensures AfterUpdateSection(p).functions == []
    ensures AfterUpdateSection(p).(content := p.content, functions := p.functions) == p
  {
  }

  lemma UpdateSectionInv(p: Parser)
    requires ContentOf(p.content, p.section) && AllWellFormed(p.functions)
    ensures ContentOf(AfterUpdateSection(p).content, p.section)
  {
    var c := AfterUpdateSection(p).content;
    UpdateSectionAppends(p);
    if p.section !in p.content.lists {
      assert p.section !in p.content.order;
      forall k, m | 0 <= k < m < |c.order| ensures c.order[k] != c.order[m] {
        if m == |c.order| - 1 { assert c.order[k] in p.content.order; }
      }
    }
  }

  // ---------------------------------------------------------------------------
  // add_function and add_declaration

  /** `add_function` raises at the first fragment lacking a parenthesis;
      otherwise it drops the `va_list ` fragments with a warning each, keeps
      the others in order, cleans them, and appends them with the cleaned
      documentation to `functions`. */
  lemma AddFunctionEmits(p: Parser)
    requires p.state & FUNCTION_DECLARATION != 0
    ensures AfterAddFunction(p).Ok? <==> forall k :: 0 <= k < |p.signatures| ==> HasParens(p.signatures[k])
    ensures AfterAddFunction(p).Err? ==>
      exists k :: 0 <= k < |p.signatures| && AfterAddFunction(p).error == MissingParenthesis(p.signatures[k])
        && !HasParens(p.signatures[k]) && forall j :: 0 <= j < k ==> HasParens(p.signatures[j])
    ensures AfterAddFunction(p).Ok? ==>
      var emitted := Declaration(CleanAll(Filter(p.signatures, false)), CleanDocLines(p.doc));
      AfterAddFunction(p).value
        == p.(doc := emitted.doc, signatures := emitted.signatures,
              warnings := p.warnings + VaListWarnings(Filter(p.signatures, true)),
              functions := p.functions + [emitted])
  {
    ScreenRaises(p.signatures);
    if Screen(p.signatures).bad == None {
      ScreenPartitions(p.signatures);
    }
  }

  /** Every declaration `add_function` emits is well formed. */
  lemma AddFunctionWellFormed(p: Parser)
    requires p.state & FUNCTION_DECLARATION != 0 && NonEmptyLines(p.doc)
    requires AfterAddFunction(p).Ok?
    ensures var q := AfterAddFunction(p).value;
      |q.functions| == |p.functions| + 1 && q.functions[..|p.functions|] == p.functions
      && WellFormed(q.functions[|p.functions|])
  {
    AddFunctionEmits(p);
    var kept := Filter(p.signatures, false);
    forall k | 0 <= k < |kept| ensures Cleaned(CleanAll(kept)[k]) {
      assert kept[k] in p.signatures;
      CleanSignatureKeepsParens(kept[k]);
      CleanSignatureNoVoid(kept[k]);
      CleanSignatureRenamesAll(kept[k]);
      CleanSignatureNoVaList(kept[k]);
    }
    CleanDocKeepsNonEmpty(p.doc);
  }

  /** `add_declaration` always ends with `state == NONE` and with empty
      `signatures` and `doc`; only a function declaration adds anything to
      `functions` (exactly one entry), and nothing touches `content`. It
      can only fail the way `add_function` does. */
  lemma AddDeclarationResets(p: Parser)
    ensures var r := AfterAddDeclaration(p);
      r.Ok? ==>
        (r.value.state == NONE && r.value.signatures == [] && r.value.doc == []
         && r.value.content == p.content && r.value.section == p.section && r.value.i == p.i
         && |p.functions| <= |r.value.functions| && r.value.functions[..|p.functions|] == p.functions
         && |r.value.functions| == |p.functions| + (if p.state & FUNCTION_DECLARATION != 0 then 1 else 0))
    ensures var r := AfterAddDeclaration(p);
      r.Err? ==> p.state & FUNCTION_DECLARATION != 0 && r.error.MissingParenthesis?
  {
    if p.state & FUNCTION_DECLARATION != 0 {
      AddFunctionEmits(p);
    }
  }

  /** Macro and type declarations are dropped: `add_macro` and `add_type`
      contribute nothing. */
  lemma MacroAndTypeEmitNothing(p: Parser)
    requires p.state == MACRO_DECLARATION || p.state == MACRO_DECLARATION | DOC || p.state == TYPE_DECLARATION
    ensures AfterAddDeclaration(p) == Ok(p.(signatures := [], doc := [], state := NONE))
  {
  }

  lemma AddDeclarationInv(p: Parser)
    requires Inv(p) && AfterAddDeclaration(p).Ok?
    ensures Inv(AfterAddDeclaration(p).value)
  {
    AddDeclarationResets(p);
    if p.state & FUNCTION_DECLARATION != 0 {
      AddFunctionWellFormed(p);
      var q := AfterAddDeclaration(p).value;
      forall k | 0 <= k < |q.functions| ensures WellFormed(q.functions[k]) {
        if k < |p.functions| { assert q.functions[k] == q.functions[..|p.functions|][k]; }
      }
    }
  }

  // ---------------------------------------------------------------------------
  // process_line, branch by branch

  /** The three lines that open a declaration. */
  predicate IsMarker(line: string)
  {
    StartsWith(line, ".. function::") || StartsWith(line, ".. macro::") || StartsWith(line, ".. type::")
  }

  /** The list `content` holds for `key`, or the empty list. */
  function ListOf(c: Sections, key: SectionKey): seq<Declaration>
  {
    if key in c.lists then c.lists[key] else []
  }

  /** `process_line` raises `RuntimeError` exactly when two kind bits are set. */
  lemma IllegalStateRaises(lines: seq<string>, p: Parser)
    requires p.i < |lines|
    ensures var r := AfterProcessLine(lines, p);
      (r.Err? && r.error.IllegalState?) <==> KindCount(p.state) > 1
    ensures KindCount(p.state) > 1 ==> AfterProcessLine(lines, p) == Err(IllegalState(p.state, p.i))
  {
    AddDeclarationResets(p);
  }

  /** What a marker line does once `process_line` has chosen that branch. */
  lemma MarkerRule(p: Parser, line: string, n: nat, kind: bv8)
    ensures var r := AfterMarker(p, line, n, kind); var q := AfterAddDeclaration(p);
      (r.Ok? <==> q.Ok? && |line| > n)
      && (q.Ok? && |line| <= n ==> r == Err(MarkerWithoutText(line)))
      && (r.Ok? ==>
            (r.value.state == kind && r.value.signatures == [Strip(line[n..])]
             && r.value.doc == [] && r.value.i == p.i + 1 && r.value.content == p.content
             && r.value.functions == q.value.functions
             && r.value.warnings == q.value.warnings + (if line[n] == ' ' then [] else [NoSpace(line)])))
  {
    AddDeclarationResets(p);
  }

  /** A `.. function::` or `.. macro::` line finishes the pending declaration
      and opens a new one whose only fragment is the stripped text after the
      marker (warning when that text does not start with a blank). A marker
      with nothing after it raises `IndexError`. */
  lemma DeclarationMarker(lines: seq<string>, p: Parser, marker: string, kind: bv8)
    requires p.i < |lines| && KindCount(p.state) <= 1 && StartsWith(lines[p.i], marker)
    requires (marker == ".. function::" && kind == FUNCTION_DECLARATION)
          || (marker == ".. macro::" && kind == MACRO_DECLARATION)
    ensures var line := lines[p.i]; var r := AfterProcessLine(lines, p); var q := AfterAddDeclaration(p);
      (r.Ok? <==> q.Ok? && |line| > |marker|)
      && (q.Ok? && |line| <= |marker| ==> r == Err(MarkerWithoutText(line)))
      && (r.Ok? ==>
            (r.value.more && r.value.p.state == kind && r.value.p.signatures == [Strip(line[|marker|..])]
             && r.value.p.doc == [] && r.value.p.i == p.i + 1 && r.value.p.content == p.content
             && r.value.p.functions == q.value.functions
             && r.value.p.warnings == q.value.warnings + (if line[|marker|] == ' ' then [] else [NoSpace(line)])))
  {
    var line := lines[p.i];
    if marker == ".. macro::" {
      assert line[3] != ".. function::"[3];
    }
    assert AfterLine(lines, p) == AfterMarker(p, line, |marker|, kind);
    MarkerRule(p, line, |marker|, kind);
  }

  /** A `.. type::` line finishes the pending declaration and enters `TYPE`. */
  lemma TypeMarker(lines: seq<string>, p: Parser)
    requires p.i < |lines| && KindCount(p.state) <= 1 && StartsWith(lines[p.i], ".. type::")
    ensures var r := AfterProcessLine(lines, p); var q := AfterAddDeclaration(p);
      (r.Ok? <==> q.Ok?)
      && (r.Ok? ==>
            (r.value.more && r.value.p.state == TYPE_DECLARATION && r.value.p.signatures == []
             && r.value.p.doc == [] && r.value.p.i == p.i + 1 && r.value.p.content == p.content
             && r.value.p.functions == q.value.functions))
  {
    AddDeclarationResets(p);
    var line := lines[p.i];
    assert line[3] != ".. function::"[3] && line[3] != ".. macro::"[3];
  }

  /** The rule for a line of a signature block, on its own. */
  lemma SignatureLineRule(p: Parser, line: string, n: nat)
    ensures var r := AfterSignatureLine(p, line, n);
      var continuation := |line| > n && StartsWith(line, Spaces(n));
      (continuation ==>
         r == Ok(p.(signatures := p.signatures + (if AllSpace(line[n..]) then [] else [Strip(line[n..])]),
                    i := p.i + 1)))
      && (!continuation && AllSpace(line) ==> r == Ok(p.(state := p.state | DOC, i := p.i + 1)))
      && (r.Err? <==> !continuation && !AllSpace(line))
      && (r.Err? ==> r.error == UnexpectedLine(line))
  {
    if |line| > n {
      var tail := Strip(line[n..]);
      assert p.signatures + [] == p.signatures;
    }
    var blank := Strip(line);
  }

  /** Inside a signature block (state exactly `FUNCTION` with `n == 14`, or
      exactly `MACRO` with `n == 10`), a line of `n` blanks followed by more
      text adds its stripped tail as a fragment unless that tail is blank; a
      blank line starts the documentation; any other line that is not a
      marker raises `ValueError`. */
  lemma SignatureBlockLine(lines: seq<string>, p: Parser, n: nat)
    requires p.i < |lines| && !IsMarker(lines[p.i])
    requires (p.state == FUNCTION_DECLARATION && n == 14) || (p.state == MACRO_DECLARATION && n == 10)
    ensures var line := lines[p.i]; var r := AfterProcessLine(lines, p);
      var continuation := |line| > n && StartsWith(line, Spaces(n));
      (continuation ==>
         r == Ok(Step(p.(signatures := p.signatures + (if AllSpace(line[n..]) then [] else [Strip(line[n..])]),
                         i := p.i + 1), true)))
      && (!continuation && AllSpace(line) ==> r == Ok(Step(p.(state := p.state | DOC, i := p.i + 1), true)))
      && (r.Err? <==> !continuation && !AllSpace(line))
      && (r.Err? ==> r.error == UnexpectedLine(line))
  {
    var line := lines[p.i];
    assert KindCount(p.state) <= 1;
    assert AfterLine(lines, p) == AfterSignatureLine(p, line, n);
    SignatureLineRule(p, line, n);
  }

  /** With `DOC` set, a line indented by four blanks adds its stripped text to
      `doc`, unless that text is empty. */
  lemma DocumentationLine(lines: seq<string>, p: Parser)
    requires p.i < |lines| && LegalState(p.state) && p.state & DOC != 0 && StartsWith(lines[p.i], "    ")
    ensures AfterProcessLine(lines, p)
      == Ok(Step(p.(doc := p.doc + (if AllSpace(lines[p.i]) then [] else [Strip(lines[p.i])]), i := p.i + 1), true))
  {
    var line := lines[p.i];
    assert line[0] == ' ';
    assert !IsMarker(line);
    assert p.state != FUNCTION_DECLARATION && p.state != MACRO_DECLARATION && KindCount(p.state) <= 1;
    assert AfterLine(lines, p) == Ok(AfterDocLine(p, line));
    assert AfterProcessLine(lines, p) == Ok(Step(AfterDocLine(p, line), true));
    var text := Strip(line);
    assert p.doc + [] == p.doc;
  }

  /** A line underlined by `----` finishes the pending declaration, flushes
      `functions` into the current section and skips the underline; the
      section itself stays what it was. */
  lemma SectionHeader(lines: seq<string>, p: Parser)
    requires p.i + 1 < |lines| && StartsWith(lines[p.i + 1], "----") && KindCount(p.state) <= 1
    requires !IsMarker(lines[p.i]) && p.state != FUNCTION_DECLARATION && p.state != MACRO_DECLARATION
    requires !(p.state & DOC != 0 && StartsWith(lines[p.i], "    "))
    ensures var r := AfterProcessLine(lines, p); var q := AfterAddDeclaration(p);
      (r.Ok? <==> q.Ok?)
      && (r.Ok? ==>
            var s := r.value.p; var pending := q.value.functions;
            s.i == p.i + 2 && s.state == NONE && s.functions == [] && s.signatures == [] && s.doc == []
            && s.section == p.section
            && (pending != [] ==> p.section in s.content.lists
                                  && s.content.lists[p.section] == ListOf(p.content, p.section) + pending)
            && (pending == [] ==> s.content == p.content))
  {
    AddDeclarationResets(p);
    if AfterAddDeclaration(p).Ok? {
      UpdateSectionAppends(AfterAddDeclaration(p).value);
    }
  }

  /** Any other line finishes the pending declaration and is consumed, except
      an empty one, which is skipped. */
  lemma OtherLine(lines: seq<string>, p: Parser)
    requires p.i < |lines| && KindCount(p.state) <= 1
    requires !IsMarker(lines[p.i]) && p.state != FUNCTION_DECLARATION && p.state != MACRO_DECLARATION
    requires !(p.state & DOC != 0 && StartsWith(lines[p.i], "    "))
    requires !(p.i + 1 < |lines| && StartsWith(lines[p.i + 1], "----"))
    ensures lines[p.i] == "" ==> AfterProcessLine(lines, p) == Ok(Step(p.(i := p.i + 1), true))
    ensures lines[p.i] != "" ==>
      var r := AfterProcessLine(lines, p); var q := AfterAddDeclaration(p);
      (r.Ok? <==> q.Ok?) && (r.Ok? ==> r.value == Step(q.value.(i := p.i + 1), true))
      && (r.Ok? ==> r.value.p.state == NONE && r.value.p.signatures == [] && r.value.p.doc == [])
  {
    AddDeclarationResets(p);
  }

  // ---------------------------------------------------------------------------
  // The invariant, through process_line, the loop and run

  /** The exceptions that reading the lines can raise once the invariant holds. */
  predicate ParseError(e: Error)
  {
    e.MissingParenthesis? || e.MarkerWithoutText? || e.UnexpectedLine?
  }

  /** Finishing a declaration, and flushing after it, keeps the invariant. */
  lemma FinishInv(p: Parser)
    requires Inv(p)
    ensures var q := AfterAddDeclaration(p);
      q.Ok? ==> (Inv(q.value) && q.value.section == p.section && q.value.content == p.content
                 && Inv(AfterUpdateSection(q.value)) && AfterUpdateSection(q.value).section == p.section
                 && Grows(p.content, AfterUpdateSection(q.value).content))
    ensures var q := AfterAddDeclaration(p); q.Err? ==> ParseError(q.error)
  {
    AddDeclarationResets(p);
    if AfterAddDeclaration(p).Ok? {
      AddDeclarationInv(p);
      var q := AfterAddDeclaration(p).value;
      UpdateSectionAppends(q);
      UpdateSectionInv(q);
    }
  }

  lemma MarkerInv(p: Parser, line: string, n: nat, kind: bv8)
    requires Inv(p) && (kind == FUNCTION_DECLARATION || kind == MACRO_DECLARATION)
    ensures var r := AfterMarker(p, line, n, kind);
      r.Ok? ==> (Inv(r.value) && r.value.section == p.section && r.value.content == p.content)
    ensures var r := AfterMarker(p, line, n, kind); r.Err? ==> ParseError(r.error)
  {
    FinishInv(p);
  }

  lemma SignatureLineInv(p: Parser, line: string, n: nat)
    requires Inv(p) && (p.state == FUNCTION_DECLARATION || p.state == MACRO_DECLARATION)
    ensures var r := AfterSignatureLine(p, line, n);
      r.Ok? ==> (Inv(r.value) && r.value.section == p.section && r.value.content == p.content)
    ensures var r := AfterSignatureLine(p, line, n); r.Err? ==> ParseError(r.error)
  {
  }

  lemma DocLineInv(p: Parser, line: string)
    requires Inv(p)
    ensures Inv(AfterDocLine(p, line)) && AfterDocLine(p, line).section == p.section
    ensures AfterDocLine(p, line).content == p.content
  {
  }

  /** Each branch of `process_line` keeps the invariant and the section and
      only adds to `content`; it raises only errors of the line itself. */
  lemma LineInv(lines: seq<string>, p: Parser)
    requires Inv(p) && p.i < |lines|
    ensures var r := AfterLine(lines, p);
      r.Ok? ==> (Inv(r.value) && r.value.section == p.section && Grows(p.content, r.value.content))
    ensures var r := AfterLine(lines, p); r.Err? ==> ParseError(r.error)
  {
    var line := lines[p.i];
    var r := AfterLine(lines, p);
    assert Grows(p.content, p.content) by {
      assert p.content.order[..|p.content.order|] == p.content.order;
    }
    if StartsWith(line, ".. function::") {
      assert r == AfterMarker(p, line, 13, FUNCTION_DECLARATION);
      MarkerInv(p, line, 13, FUNCTION_DECLARATION);
    } else if StartsWith(line, ".. macro::") {
      assert r == AfterMarker(p, line, 10, MACRO_DECLARATION);
      MarkerInv(p, line, 10, MACRO_DECLARATION);
    } else if StartsWith(line, ".. type::") {
      TypeLineInv(lines, p);
    } else if p.state == FUNCTION_DECLARATION {
      assert r == AfterSignatureLine(p, line, 14);
      SignatureLineInv(p, line, 14);
    } else if p.state == MACRO_DECLARATION {
      assert r == AfterSignatureLine(p, line, 10);
      SignatureLineInv(p, line, 10);
    } else if p.state & DOC != 0 && StartsWith(line, "    ") {
      assert r == Ok(AfterDocLine(p, line));
      DocLineInv(p, line);
    } else {
      LastBranchesInv(lines, p);
    }
  }

  lemma TypeLineInv(lines: seq<string>, p: Parser)
    requires Inv(p) && p.i < |lines| && StartsWith(lines[p.i], ".. type::")
    ensures var r := AfterLine(lines, p);
      r.Ok? ==> (Inv(r.value) && r.value.section == p.section && r.value.content == p.content)
    ensures var r := AfterLine(lines, p); r.Err? ==> ParseError(r.error)
  {
    var line := lines[p.i];
    assert line[3] != ".. function::"[3] && line[3] != ".. macro::"[3];
    FinishInv(p);
  }

  /** The section-header, empty-line and any-other-line branches. */
  lemma LastBranchesInv(lines: seq<string>, p: Parser)
    requires Inv(p) && p.i < |lines| && !IsMarker(lines[p.i])
    requires p.state != FUNCTION_DECLARATION && p.state != MACRO_DECLARATION
    requires !(p.state & DOC != 0 && StartsWith(lines[p.i], "    "))
    ensures var r := AfterLine(lines, p);
      r.Ok? ==> (Inv(r.value) && r.value.section == p.section && Grows(p.content, r.value.content))
    ensures var r := AfterLine(lines, p); r.Err? ==> ParseError(r.error)
  {
    var q := AfterAddDeclaration(p);
    if p.i + 1 < |lines| && StartsWith(lines[p.i + 1], "----") {
      var flushed := if q.Ok? && q.value.functions != [] then AfterUpdateSection(q.value) else p;
      assert AfterLine(lines, p)
        == if q.Err? then Err(q.error)
           else if q.value.functions != [] then Ok(flushed.(i := flushed.i + 2))
           else Ok(q.value.(i := q.value.i + 2));
      HeaderInv(p);
    } else if lines[p.i] == "" {
      assert AfterLine(lines, p) == Ok(p.(i := p.i + 1));
      IndexFree(p, p.i + 1);
      GrowsReflexive(p.content);
    } else {
      assert AfterLine(lines, p) == if q.Err? then Err(q.error) else Ok(q.value.(i := p.i + 1));
      FinishInv(p);
      GrowsReflexive(p.content);
      if q.Ok? {
        IndexFree(q.value, p.i + 1);
      }
    }
  }

  lemma GrowsReflexive(c: Sections)
    ensures Grows(c, c)
  {
    assert c.order[..|c.order|] == c.order;
  }

  /** The section-header branch, after `add_declaration`. */
  lemma HeaderInv(p: Parser)
    requires Inv(p)
    ensures var q := AfterAddDeclaration(p);
      q.Ok? ==>
        var q2 := if q.value.functions != [] then AfterUpdateSection(q.value) else q.value;
        Inv(q2.(i := q2.i + 2)) && q2.section == p.section && Grows(p.content, q2.content)
    ensures var q := AfterAddDeclaration(p); q.Err? ==> ParseError(q.error)
  {
    FinishInv(p);
    GrowsReflexive(p.content);
    var q := AfterAddDeclaration(p);
    if q.Ok? {
      var q2 := if q.value.functions != [] then AfterUpdateSection(q.value) else q.value;
      IndexFree(q2, q2.i + 2);
    }
  }

  /** The invariant does not depend on the line index. */
  lemma IndexFree(p: Parser, j: nat)
    requires Inv(p)
    ensures Inv(p.(i := j))
  {
  }

  lemma ProcessLineInv(lines: seq<string>, p: Parser)
    requires Inv(p)
    ensures var r := AfterProcessLine(lines, p);
      r.Ok? ==> (Inv(r.value.p) && r.value.p.section == p.section && Grows(p.content, r.value.p.content))
    ensures var r := AfterProcessLine(lines, p); r.Err? ==> ParseError(r.error)
  {
    if p.i < |lines| {
      assert KindCount(p.state) <= 1;
      LineInv(lines, p);
    } else {
      assert p.content.order[..|p.content.order|] == p.content.order;
    }
  }

  /** From any state satisfying the invariant, the loop of `run` consumes all
      the lines, keeps the invariant and the section, only adds to
      `content`, and never raises the illegal-state `RuntimeError`: only the
      errors of the lines themselves remain. */
  lemma {:induction false} LoopInv(lines: seq<string>, p: Parser)
    requires Inv(p) && p.i <= |lines|
    ensures var r := AfterLoop(lines, p);
      r.Ok? ==> (Inv(r.value) && r.value.i == |lines| && r.value.section == p.section
                 && Grows(p.content, r.value.content))
    ensures var r := AfterLoop(lines, p); r.Err? ==> ParseError(r.error)
    decreases |lines| - p.i
  {
    ProcessLineInv(lines, p);
    var s := AfterProcessLine(lines, p);
    if s.Ok? && s.value.more {
      LoopInv(lines, s.value.p);
      if AfterLoop(lines, s.value.p).Ok? {
        GrowsTransitive(p.content, s.value.p.content, AfterLoop(lines, s.value.p).value.content);
      }
    }
  }

  /** `run` ends idle, with nothing pending in `functions`, every line
      consumed, the invariant kept and `content` only added to. */
  lemma RunFinishes(lines: seq<string>, p: Parser)
    requires Inv(p) && p.i <= |lines|
    ensures var r := AfterRun(lines, p);
      r.Ok? ==> (Inv(r.value) && r.value.state == NONE && r.value.functions == [] && r.value.i == |lines|
                 && r.value.section == p.section && Grows(p.content, r.value.content))
    ensures var r := AfterRun(lines, p); r.Err? ==> ParseError(r.error)
  {
    LoopInv(lines, p);
    if AfterLoop(lines, p).Ok? {
      var q := AfterLoop(lines, p).value;
      if q.state & FUNCTION_DECLARATION != 0 {
        AddFunctionEmits(q);
        if AfterAddFunction(q).Ok? {
          AddFunctionWellFormed(q);
          var q1 := AfterAddFunction(q).value;
          forall k | 0 <= k < |q1.functions| ensures WellFormed(q1.functions[k]) {
            if k < |q.functions| { assert q1.functions[k] == q1.functions[..|q.functions|][k]; }
          }
        }
      }
      var q1 := if q.state & FUNCTION_DECLARATION != 0 then AfterAddFunction(q) else Ok(q);
      if q1.Ok? {
        UpdateSectionAppends(q1.value);
        UpdateSectionInv(q1.value);
        if q1.value.functions != [] {
          GrowsTransitive(p.content, q.content, AfterUpdateSection(q1.value).content);
        }
      }
    }
  }

  /** At the end of the input `run` finishes a function that is still open
      and appends everything pending to the current section. */
  lemma RunFlushes(lines: seq<string>, p: Parser)
    requires AfterLoop(lines, p).Ok? && AfterRun(lines, p).Ok?
    ensures var q := AfterLoop(lines, p).value; var c := AfterRun(lines, p).value.content;
      var pending := q.functions
        + (if q.state & FUNCTION_DECLARATION != 0
           then [Declaration(CleanAll(Filter(q.signatures, false)), CleanDocLines(q.doc))] else []);
      (pending != [] ==> q.section in c.lists && c.lists[q.section] == ListOf(q.content, q.section) + pending)
      && (pending == [] ==> c == q.content)
  {
    var q := AfterLoop(lines, p).value;
    if q.state & FUNCTION_DECLARATION != 0 {
      AddFunctionEmits(q);
    }
    var q1 := if q.state & FUNCTION_DECLARATION != 0 then AfterAddFunction(q).value else q;
    UpdateSectionAppends(q1);
  }

  // ---------------------------------------------------------------------------
  // extract_functions

  /** A dictionary whose keys all equal one key has at most one entry. */
  lemma OneKey(c: Sections, key: SectionKey)
    requires ContentOf(c, key)
    ensures |c.order| <= 1
  {
    var two := |c.order| >= 2;
    var (first, second) := if two then (c.order[0], c.order[1]) else (key, key);
    assert two ==> first in c.lists && second in c.lists;
  }

  /** Whatever `extract_functions` returns is an ordered dictionary whose only
      possible key is `None` (the header text is never stored in `section`)
      and whose declarations are all well formed. It raises `ValueError` for
      a file name without `.rst`, and never the illegal-state error. */
  lemma ExtractWellFormed(filename: string, lines: seq<string>)
    ensures var r := AfterExtractFunctions(filename, lines);
      r.Ok? ==> (ContentOf(r.value, None) && |r.value.order| <= 1
                 && forall k :: k in r.value.lists ==> AllWellFormed(r.value.lists[k]))
    ensures var r := AfterExtractFunctions(filename, lines);
      r.Err? ==> (ParseError(r.error) <==> EndsWith(filename, ".rst"))
    ensures !EndsWith(filename, ".rst") ==> AfterExtractFunctions(filename, lines) == Err(NotRstFile(filename))
  {
    InitialInv();
    RunFinishes(lines, Initial());
    if AfterExtractFunctions(filename, lines).Ok? {
      OneKey(AfterExtractFunctions(filename, lines).value, None);
    }
  }
}

=== FILE: Normalizer.dfy ===
/** What `add_function` does to a finished function declaration: screen the
    signature fragments, rewrite them textually, and tidy the documentation.
    These are the pure parts of `Extractor.add_function`,
    `Extractor.clean_signatures` and `Extractor.clean_doc`; the methods of
    the `Extractor` class are proved to compute them. */
module Normalizer {
  import opened Text

  /** A fragment is structurally sound when it has both parentheses. */
  predicate HasParens(s: string)
  {
    '(' in s && ')' in s
  }

  const VaListMarker: string := "va_list "

  predicate IsVaList(s: string)
  {
    Occurs(s, VaListMarker)
  }

  /** The outcome of the screening loop of `add_function` over the fragments:
      the fragments kept, the `va_list` fragments dropped (each one warned
      about), and the first fragment without both parentheses, if any,
      at which the loop raises. */
  datatype Screening = Screening(kept: seq<string>, dropped: seq<string>, bad: Option<string>)

  /** The screening loop run over `sigs` from first to last. */
  function Screen(sigs: seq<string>): Screening
  {
    if sigs == [] then Screening([], [], None)
    else
      var prior := Screen(sigs[..|sigs| - 1]);
      var s := sigs[|sigs| - 1];
      if prior.bad.Some? then prior
      else if !HasParens(s) then prior.(bad := Some(s))
      else if IsVaList(s) then prior.(dropped := prior.dropped + [s])
      else prior.(kept := prior.kept + [s])
  }

  /** The loop raises exactly when some fragment lacks a parenthesis, and then
      at the first such fragment. */
  lemma {:induction false} ScreenRaises(sigs: seq<string>)
    ensures Screen(sigs).bad == None <==> forall k :: 0 <= k < |sigs| ==> HasParens(sigs[k])
    ensures Screen(sigs).bad.Some? ==>
      exists k :: 0 <= k < |sigs| && sigs[k] == Screen(sigs).bad.value && !HasParens(sigs[k])
        && forall j :: 0 <= j < k ==> HasParens(sigs[j])
  {
    if sigs != [] {
      var init := sigs[..|sigs| - 1];
      ScreenRaises(init);
      if Screen(init).bad.Some? {
        var k :| 0 <= k < |init| && init[k] == Screen(init).bad.value && !HasParens(init[k])
          && forall j :: 0 <= j < k ==> HasParens(init[j]);
        assert sigs[k] == init[k];
      } else {
        assert forall k :: 0 <= k < |init| ==> sigs[k] == init[k];
      }
    }
  }

  /** One more turn of the screening loop. */
  lemma ScreenStep(sigs: seq<string>, k: nat)
    requires k < |sigs|
    ensures var prior := Screen(sigs[..k]); var s := sigs[k];
      Screen(sigs[..k + 1])
        == if prior.bad.Some? then prior
           else if !HasParens(s) then prior.(bad := Some(s))
           else if IsVaList(s) then prior.(dropped := prior.dropped + [s])
           else prior.(kept := prior.kept + [s])
  {
    assert sigs[..k + 1][..k] == sigs[..k];
  }

  /** Once the loop has raised, the fragments after the bad one change nothing. */
  lemma {:induction false} ScreenStopsAtBad(sigs: seq<string>, k: nat)
    requires k <= |sigs| && Screen(sigs[..k]).bad.Some?
    ensures Screen(sigs) == Screen(sigs[..k])
    decreases |sigs| - k
  {
    if k < |sigs| {
      assert sigs[..k + 1][..k] == sigs[..k];
      ScreenStopsAtBad(sigs, k + 1);
    } else {
      assert sigs[..k] == sigs;
    }
  }

  /** When nothing raises, the kept fragments are exactly the fragments
      without `va_list `, and the dropped ones exactly those with it, each in
      its original order. */
  lemma {:induction false} ScreenPartitions(sigs: seq<string>)
    requires Screen(sigs).bad == None
    ensures Screen(sigs).kept == Filter(sigs, false)
    ensures Screen(sigs).dropped == Filter(sigs, true)
  {
    if sigs != [] {
      ScreenPartitions(sigs[..|sigs| - 1]);
    }
  }

  /** The fragments of `sigs`, in order, for which `IsVaList` equals `vaList`. */
  function Filter(sigs: seq<string>, vaList: bool): (r: seq<string>)
    ensures forall x :: x in r <==> x in sigs && IsVaList(x) == vaList
  {
    if sigs == [] then []
    else
      var init := Filter(sigs[..|sigs| - 1], vaList);
      var s := sigs[|sigs| - 1];
      assert sigs == sigs[..|sigs| - 1] + [s];
      if IsVaList(s) == vaList then init + [s] else init
  }

  /** Every fragment survives screening in exactly one of the two lists. */
  lemma {:induction false} ScreenIsPermutation(sigs: seq<string>)
    requires Screen(sigs).bad == None
    ensures multiset(Screen(sigs).kept) + multiset(Screen(sigs).dropped) == multiset(sigs)
  {
    if sigs != [] {
      var init := sigs[..|sigs| - 1];
      ScreenIsPermutation(init);
      assert sigs == init + [sigs[|sigs| - 1]];
    }
  }

  // ---------------------------------------------------------------------------
  // Textual rewrites of `clean_signatures`

  /** The type fixes, applied first and in this order. */
  const TypeFixes: seq<(string, string)> := [("(void)", "()"), (" enum ", " ")]

  /** Reserved parameter names and their replacements. */
  const BadArgNames: seq<(string, string)> := [("in", "input"), ("lambda", "lmbda"), ("iter", "it")]

  /** The four contexts `' {},'`, `' {})'`, `'*{},'` and `'*{})'` a name is
      renamed in, as the text before and after the name. */
  const ArgPatterns: seq<(string, string)> := [(" ", ","), (" ", ")"), ("*", ","), ("*", ")")]

  /** The twelve renamings, pattern by pattern and, within a pattern, name by
      name, as the nested list comprehension builds them. */
  const Renames: seq<(string, string)> := RenameTable(ArgPatterns, BadArgNames)

  /** Every pattern filled with every name and, separately, with its
      replacement; patterns vary slowest. */
  function RenameTable(patterns: seq<(string, string)>, names: seq<(string, string)>): seq<(string, string)>
  {
    if patterns == [] then [] else RenamesFor(patterns[0], names) + RenameTable(patterns[1..], names)
  }

  /** The renamings of all `names` in one `pattern`. */
  function RenamesFor(pattern: (string, string), names: seq<(string, string)>): (t: seq<(string, string)>)
    ensures |t| == |names| && forall b :: 0 <= b < |names| ==> t[b] == Rename(pattern, names[b])
  {
    if names == [] then [] else [Rename(pattern, names[0])] + RenamesFor(pattern, names[1..])
  }

  /** A pattern filled once with the reserved name and once with its
      replacement. */
  function Rename(pattern: (string, string), names: (string, string)): (string, string)
  {
    (pattern.0 + names.0 + pattern.1, pattern.0 + names.1 + pattern.1)
  }

  /** A parameter name: no blank, `*`, comma or parenthesis in it. */
  predicate IsWord(w: string)
  {
    |w| > 0 && forall i :: 0 <= i < |w| ==> w[i] != ' ' && w[i] != '*' && w[i] != ',' && w[i] != '(' && w[i] != ')'
  }

  /** A pattern is a blank or `*` before the name and a comma or `)` after it. */
  predicate PatternShape(pattern: (string, string))
  {
    (pattern.0 == " " || pattern.0 == "*") && (pattern.1 == "," || pattern.1 == ")")
  }

  predicate PatternsShape(patterns: seq<(string, string)>)
  {
    forall a :: 0 <= a < |patterns| ==> PatternShape(patterns[a])
  }

  /** Names and replacements are words, and no replacement is itself a
      reserved name. */
  predicate NamesShape(names: seq<(string, string)>)
  {
    (forall b :: 0 <= b < |names| ==> IsWord(names[b].0) && IsWord(names[b].1))
    && forall b, c :: 0 <= b < |names| && 0 <= c < |names| ==> names[c].1 != names[b].0
  }

  lemma TablesShape()
    ensures PatternsShape(ArgPatterns) && NamesShape(BadArgNames)
  {
    assert "it"[1] != "in"[1];
  }

  /** Every renaming comes from one pattern and one name. */
  lemma {:induction false} RenameTableMembers(patterns: seq<(string, string)>, names: seq<(string, string)>)
    ensures forall k :: 0 <= k < |RenameTable(patterns, names)| ==>
      exists a, b :: 0 <= a < |patterns| && 0 <= b < |names| && RenameTable(patterns, names)[k] == Rename(patterns[a], names[b])
  {
    if patterns != [] {
      RenameTableMembers(patterns[1..], names);
      var first := RenamesFor(patterns[0], names);
      var rest := RenameTable(patterns[1..], names);
      assert RenameTable(patterns, names) == first + rest;
      forall k | 0 <= k < |first + rest|
        ensures exists a, b :: 0 <= a < |patterns| && 0 <= b < |names| && (first + rest)[k] == Rename(patterns[a], names[b])
      {
        if k < |first| {
          assert (first + rest)[k] == Rename(patterns[0], names[k]);
        } else {
          var a, b :| 0 <= a < |patterns[1..]| && 0 <= b < |names| && rest[k - |first|] == Rename(patterns[1..][a], names[b]);
          assert (first + rest)[k] == Rename(patterns[a + 1], names[b]);
        }
      }
    } else {
      assert RenameTable(patterns, names) == [];
    }
  }

  lemma DifferAt(a: string, b: string, i: nat)
    requires i < |a| && i < |b| && a[i] != b[i]
    ensures !Compatible(a, b)
  {
    if |a| <= |b| { assert a[i] != b[..|a|][i]; } else { assert a[..|b|][i] != b[i]; }
  }

  /** A renaming's replacement cannot help form any reserved form. */
  lemma RenameNoOverlap(p: (string, string), n: (string, string), p2: (string, string), n2: (string, string))
    requires PatternShape(p) && PatternShape(p2) && IsWord(n.0) && IsWord(n2.1) && n2.1 != n.0
    ensures NoOverlap(Rename(p2, n2).1, Rename(p, n).0)
  {
    var q := Rename(p, n).0;
    var r := Rename(p2, n2).1;
    var u, v := n.0, n2.1;
    assert |p.0| == |p.1| == |p2.0| == |p2.1| == 1;
    assert q == p.0 + u + p.1 && r == p2.0 + v + p2.1;
    assert |q| == |u| + 2 && |r| == |v| + 2;
    assert forall i :: 1 <= i < |q| ==> q[i] != ' ' && q[i] != '*' by {
      forall i | 1 <= i < |q| ensures q[i] != ' ' && q[i] != '*' {
        if i <= |u| { assert q[i] == u[i - 1]; } else { assert q[i] == p.1[0]; }
      }
    }
    assert r[0] == p2.0[0];
    assert r[0] == ' ' || r[0] == '*';
    assert r[0] !in q[1..];
    forall j | 0 <= j < |r| ensures !Compatible(r[j..], q) {
      if j > 0 {
        var c := r[j];
        assert c != ' ' && c != '*' by {
          if j <= |v| { assert c == v[j - 1]; } else { assert j == |v| + 1 && c == p2.1[0]; }
        }
        assert r[j..][0] == c && q[0] == p.0[0];
        DifferAt(r[j..], q, 0);
      } else if r[0] != q[0] {
        DifferAt(r, q, 0);
      } else if |v| < |u| {
        assert r[|v| + 1] == p2.1[0] && q[|v| + 1] == u[|v|];
        DifferAt(r, q, |v| + 1);
      } else if |v| > |u| {
        assert r[|u| + 1] == v[|u|] && q[|u| + 1] == p.1[0];
        DifferAt(r, q, |u| + 1);
      } else {
        var i :| 0 <= i < |u| && u[i] != v[i];
        assert r[i + 1] == v[i] && q[i + 1] == u[i];
        DifferAt(r, q, i + 1);
      }
      assert r[j..] == r[0..] ==> j == 0;
    }
  }

  /** Shape facts about one renaming, as the proofs below use them. */
  lemma RenameShape(p: (string, string), n: (string, string))
    requires PatternShape(p) && IsWord(n.0) && IsWord(n.1)
    ensures var r := Rename(p, n);
      |r.0| > 0 && |r.1| > 0 && (r.1[0] == ' ' || r.1[0] == '*')
      && '(' !in r.0 && '(' !in r.1 && (')' in r.0 ==> ')' in r.1)
  {
    var r := Rename(p, n);
    assert r.0 == p.0 + n.0 + p.1 && r.1 == p.0 + n.1 + p.1;
    assert |p.0| == |p.1| == 1;
    assert r.1[0] == p.0[0];
    forall i | 0 <= i < |r.0| ensures r.0[i] != '(' && (r.0[i] == ')' ==> i == |r.0| - 1) {
      if 1 <= i <= |n.0| { assert r.0[i] == n.0[i - 1]; }
    }
    forall i | 0 <= i < |r.1| ensures r.1[i] != '(' {
      if 1 <= i <= |n.1| { assert r.1[i] == n.1[i - 1]; }
    }
    if ')' in r.0 {
      assert p.1 == ")";
      assert r.1[|r.1| - 1] == ')';
    }
  }

  /** Shape facts about the renaming table. */
  lemma RenamesShape()
    ensures ValidTable(Renames)
    ensures forall k :: 0 <= k < |Renames| ==>
      |Renames[k].1| > 0 && (Renames[k].1[0] == ' ' || Renames[k].1[0] == '*')
      && '(' !in Renames[k].0 && '(' !in Renames[k].1 && (')' in Renames[k].0 ==> ')' in Renames[k].1)
  {
    TablesShape();
    RenameTableMembers(ArgPatterns, BadArgNames);
    forall k | 0 <= k < |Renames|
      ensures |Renames[k].0| > 0 && |Renames[k].1| > 0 && (Renames[k].1[0] == ' ' || Renames[k].1[0] == '*')
      ensures '(' !in Renames[k].0 && '(' !in Renames[k].1 && (')' in Renames[k].0 ==> ')' in Renames[k].1)
    {
      var a, b :| 0 <= a < |ArgPatterns| && 0 <= b < |BadArgNames| && Renames[k] == Rename(ArgPatterns[a], BadArgNames[b]);
      RenameShape(ArgPatterns[a], BadArgNames[b]);
    }
  }

  /** No replacement text of the table helps form any reserved form. */
  lemma RenamesNoOverlap()
    ensures forall k, m :: 0 <= k < |Renames| && 0 <= m < |Renames| ==> NoOverlap(Renames[m].1, Renames[k].0)
  {
    TablesShape();
    RenameTableMembers(ArgPatterns, BadArgNames);
    forall k, m | 0 <= k < |Renames| && 0 <= m < |Renames| ensures NoOverlap(Renames[m].1, Renames[k].0) {
      var a, b :| 0 <= a < |ArgPatterns| && 0 <= b < |BadArgNames| && Renames[k] == Rename(ArgPatterns[a], BadArgNames[b]);
      var a2, b2 :| 0 <= a2 < |ArgPatterns| && 0 <= b2 < |BadArgNames| && Renames[m] == Rename(ArgPatterns[a2], BadArgNames[b2]);
      RenameNoOverlap(ArgPatterns[a], BadArgNames[b], ArgPatterns[a2], BadArgNames[b2]);
    }
  }

  predicate ValidTable(table: seq<(string, string)>)
  {
    forall k :: 0 <= k < |table| ==> |table[k].0| > 0
  }

  /** `s` with every replacement of `table` applied in turn. */
  function ReplaceEach(s: string, table: seq<(string, string)>): string
    requires ValidTable(table)
  {
    if table == [] then s
    else
      var last := table[|table| - 1];
      ReplaceAll(ReplaceEach(s, table[..|table| - 1]), last.0, last.1)
  }

  lemma RenamesAreValid()
    ensures ValidTable(TypeFixes) && ValidTable(Renames)
  {
    RenamesShape();
  }

  /** One signature fragment after `clean_signatures`. */
  function CleanSignature(s: string): string
  {
    RenamesAreValid();
    ReplaceEach(ReplaceEach(s, TypeFixes), Renames)
  }

  /** Applying a table whose replacements cannot form `q` keeps `q` absent. */
  lemma {:induction false} ReplaceEachKeepsAbsent(s: string, table: seq<(string, string)>, q: string)
    requires ValidTable(table) && !Occurs(s, q)
    requires forall k :: 0 <= k < |table| ==> NoOverlap(table[k].1, q)
    ensures !Occurs(ReplaceEach(s, table), q)
  {
    if table != [] {
      var last := table[|table| - 1];
      ReplaceEachKeepsAbsent(s, table[..|table| - 1], q);
      ReplaceAllKeepsAbsent(ReplaceEach(s, table[..|table| - 1]), last.0, last.1, q);
    }
  }

  /** A cleaned fragment never contains `(void)`. */
  lemma CleanSignatureNoVoid(s: string)
    ensures !Occurs(CleanSignature(s), "(void)")
  {
    var q := "(void)";
    assert q[1..] == "void)";
    forall j | 0 <= j < 2 ensures !Compatible("()"[j..], q) {
      if j == 0 { assert "()"[j..][1] != q[1]; } else { assert "()"[j..][0] != q[0]; }
    }
    ReplaceAllRemoves(s, q, "()");
    var afterVoid := ReplaceAll(s, q, "()");
    NoOverlapByHeads(" ", q);
    ReplaceAllKeepsAbsent(afterVoid, " enum ", " ", q);
    TypeFixesApplied(s);
    RenamesShape();
    forall k | 0 <= k < |Renames| ensures NoOverlap(Renames[k].1, q) {
      NoOverlapByHeads(Renames[k].1, q);
    }
    RenamesAreValid();
    ReplaceEachKeepsAbsent(ReplaceEach(s, TypeFixes), Renames, q);
  }

  /** A replacement that cannot help form `va_list `: it holds no `v`, its
      first character is none of `a_list`, and when it starts with a blank
      so does its pattern. */
  predicate VaListSafe(p: string, r: string)
  {
    |p| > 0 && |r| > 0 && 'v' !in r && r[0] !in "a_list" && (r[0] == ' ' ==> p[0] == ' ')
  }

  /** A safe replacement lines up with `va_list ` only on its final blank,
      where its pattern lines up too. */
  lemma VaListSafeShared(p: string, r: string, q: string)
    requires q == VaListMarker && VaListSafe(p, r)
    ensures SharedLead(p, r, q) && forall j :: 0 <= j < |r| ==> !Compatible(r[j..], q)
  {
    forall j | 0 <= j < |r| ensures !Compatible(r[j..], q) {
      assert r[j..][0] == r[j] != q[0];
      DifferAt(r[j..], q, 0);
    }
    forall k | 1 <= k < |q|
      ensures Compatible(q[k..], r) ==> |q| - k <= |r| && |q| - k <= |p| && q[k..] == p[..|q| - k]
    {
      if k < |q| - 1 {
        assert q[k..][0] == q[k] == "a_list"[k - 1];
        DifferAt(q[k..], r, 0);
      } else {
        assert q[k..] == " ";
        if Compatible(q[k..], r) {
          assert r[..1] == " ";
          assert p[..1] == [p[0]];
        }
      }
    }
  }

  /** Applying a table of safe replacements to a text without `va_list `
      leaves it without `va_list `. */
  lemma {:induction false} ReplaceEachKeepsNoVaList(s: string, table: seq<(string, string)>)
    requires ValidTable(table) && !IsVaList(s)
    requires forall k :: 0 <= k < |table| ==> VaListSafe(table[k].0, table[k].1)
    ensures !IsVaList(ReplaceEach(s, table))
  {
    if table != [] {
      var last := table[|table| - 1];
      ReplaceEachKeepsNoVaList(s, table[..|table| - 1]);
      VaListSafeShared(last.0, last.1, VaListMarker);
      ReplaceAllKeepsAbsentShared(ReplaceEach(s, table[..|table| - 1]), last.0, last.1, VaListMarker);
    }
  }

  /** Both type fixes are safe. */
  lemma TypeFixesVaListSafe()
    ensures forall k :: 0 <= k < |TypeFixes| ==> VaListSafe(TypeFixes[k].0, TypeFixes[k].1)
  {
    assert TypeFixes[0] == ("(void)", "()") && TypeFixes[1] == (" enum ", " ");
  }

  /** A renaming whose replacement name has no `v` is safe. */
  lemma RenameVaListSafe(p: (string, string), n: (string, string))
    requires PatternShape(p) && IsWord(n.0) && 'v' !in n.1
    ensures VaListSafe(Rename(p, n).0, Rename(p, n).1)
  {
    var r := Rename(p, n);
    assert r.0 == p.0 + n.0 + p.1 && r.1 == p.0 + n.1 + p.1;
    assert r.0[0] == p.0[0] && r.1[0] == p.0[0];
    assert 'v' !in p.0 && 'v' !in p.1;
  }

  /** Every renaming is safe. */
  lemma RenamesVaListSafe()
    ensures forall k :: 0 <= k < |Renames| ==> VaListSafe(Renames[k].0, Renames[k].1)
  {
    TablesShape();
    RenameTableMembers(ArgPatterns, BadArgNames);
    assert forall b :: 0 <= b < |BadArgNames| ==> 'v' !in BadArgNames[b].1;
    forall k | 0 <= k < |Renames| ensures VaListSafe(Renames[k].0, Renames[k].1) {
      var a, b :| 0 <= a < |ArgPatterns| && 0 <= b < |BadArgNames| && Renames[k] == Rename(ArgPatterns[a], BadArgNames[b]);
      RenameVaListSafe(ArgPatterns[a], BadArgNames[b]);
    }
  }

  /** Cleaning never introduces `va_list `: a fragment kept by the screening
      loop stays free of it. */
  lemma CleanSignatureNoVaList(s: string)
    requires !IsVaList(s)
    ensures !IsVaList(CleanSignature(s))
  {
    RenamesAreValid();
    TypeFixesVaListSafe();
    ReplaceEachKeepsNoVaList(s, TypeFixes);
    RenamesVaListSafe();
    ReplaceEachKeepsNoVaList(ReplaceEach(s, TypeFixes), Renames);
  }

  lemma TypeFixesApplied(s: string)
    ensures ValidTable(TypeFixes)
    ensures ReplaceEach(s, TypeFixes) == ReplaceAll(ReplaceAll(s, "(void)", "()"), " enum ", " ")
  {
    var first := TypeFixes[..1];
    assert TypeFixes[|TypeFixes| - 1] == (" enum ", " ") && TypeFixes[..|TypeFixes| - 1] == first;
    assert first[|first| - 1] == ("(void)", "()") && first[..|first| - 1] == [];
    assert ReplaceEach(s, first) == ReplaceAll(s, "(void)", "()");
  }

  /** Applying one more entry of a table is one more `replace`. */
  lemma ReplaceEachStep(s: string, table: seq<(string, string)>, k: nat)
    requires ValidTable(table) && k < |table|
    ensures ValidTable(table[..k]) && ValidTable(table[..k + 1])
    ensures ReplaceEach(s, table[..k + 1]) == ReplaceAll(ReplaceEach(s, table[..k]), table[k].0, table[k].1)
  {
    var head := table[..k + 1];
    assert head[..|head| - 1] == table[..k] && head[|head| - 1] == table[k];
  }

  /** Applying a table is applying its first `i` entries, then the rest. */
  lemma {:induction false} ReplaceEachSplit(s: string, table: seq<(string, string)>, i: nat)
    requires ValidTable(table) && i <= |table|
    ensures ReplaceEach(s, table) == ReplaceEach(ReplaceEach(s, table[..i]), table[i..])
    decreases |table|
  {
    if i == |table| {
      assert table[..i] == table && table[i..] == [];
    } else {
      var init := table[..|table| - 1];
      ReplaceEachSplit(s, init, i);
      assert init[..i] == table[..i];
      var tail := table[i..];
      assert tail[..|tail| - 1] == init[i..] && tail[|tail| - 1] == table[|table| - 1];
    }
  }

  /** Every reserved name in one of its four contexts is renamed: none of the
      twelve forms survives cleaning. */
  lemma CleanSignatureRenamesAll(s: string)
    ensures forall k :: 0 <= k < |Renames| ==> !Occurs(CleanSignature(s), Renames[k].0)
  {
    RenamesNoOverlap();
    RenamesAreValid();
    forall k | 0 <= k < |Renames| ensures !Occurs(CleanSignature(s), Renames[k].0) {
      ReplaceEachRemoves(ReplaceEach(s, TypeFixes), Renames, k);
    }
  }

  /** After applying a whole table, the pattern of entry `k` is gone, provided
      no replacement in the table can recreate it. */
  lemma ReplaceEachRemoves(x: string, table: seq<(string, string)>, k: nat)
    requires ValidTable(table) && k < |table|
    requires forall m :: 0 <= m < |table| ==> NoOverlap(table[m].1, table[k].0)
    ensures !Occurs(ReplaceEach(x, table), table[k].0)
  {
    var q := table[k].0;
    ReplaceEachSplit(x, table, k + 1);
    var head := table[..k + 1];
    assert head[..|head| - 1] == table[..k] && head[|head| - 1] == table[k];
    var y := ReplaceEach(x, head);
    assert y == ReplaceAll(ReplaceEach(x, table[..k]), q, table[k].1);
    ReplaceAllRemoves(ReplaceEach(x, table[..k]), q, table[k].1);
    var tail := table[k + 1..];
    assert forall m :: 0 <= m < |tail| ==> tail[m] == table[k + 1 + m];
    ReplaceEachKeepsAbsent(y, tail, q);
  }

  lemma {:induction false} ReplaceEachKeepsChar(s: string, table: seq<(string, string)>, c: char)
    requires ValidTable(table) && c in s
    requires forall k :: 0 <= k < |table| ==> (c in table[k].0 ==> c in table[k].1)
    ensures c in ReplaceEach(s, table)
  {
    if table != [] {
      var last := table[|table| - 1];
      ReplaceEachKeepsChar(s, table[..|table| - 1], c);
      ReplaceAllKeepsChar(ReplaceEach(s, table[..|table| - 1]), last.0, last.1, c);
    }
  }

  /** Cleaning never removes a parenthesis the fragment had, so a fragment
      that passed the structural check still passes it once cleaned. */
  lemma CleanSignatureKeepsParens(s: string)
    requires HasParens(s)
    ensures HasParens(CleanSignature(s))
  {
    RenamesAreValid();
    TypeFixesKeepParens(s);
    RenamesKeepParens(ReplaceEach(s, TypeFixes));
  }

  lemma TypeFixesKeepParens(s: string)
    requires HasParens(s)
    ensures ValidTable(TypeFixes) && HasParens(ReplaceEach(s, TypeFixes))
  {
    TypeFixesApplied(s);
    assert ')' in "()" && '(' in "()";
    assert '(' !in " enum " && ')' !in " enum ";
    ReplaceAllKeepsChar(s, "(void)", "()", '(');
    ReplaceAllKeepsChar(s, "(void)", "()", ')');
    ReplaceAllKeepsChar(ReplaceAll(s, "(void)", "()"), " enum ", " ", '(');
    ReplaceAllKeepsChar(ReplaceAll(s, "(void)", "()"), " enum ", " ", ')');
  }

  lemma RenamesKeepParens(s: string)
    requires HasParens(s)
    ensures ValidTable(Renames) && HasParens(ReplaceEach(s, Renames))
  {
    RenamesShape();
    ReplaceEachKeepsChar(s, Renames, '(');
    ReplaceEachKeepsChar(s, Renames, ')');
  }

  /** A fragment with none of the fourteen patterns is left as it is. */
  lemma {:induction false} ReplaceEachUnchanged(s: string, table: seq<(string, string)>)
    requires ValidTable(table)
    requires forall k :: 0 <= k < |table| ==> !Occurs(s, table[k].0)
    ensures ReplaceEach(s, table) == s
  {
    if table != [] {
      ReplaceEachUnchanged(s, table[..|table| - 1]);
    }
  }

  lemma CleanSignatureUnchanged(s: string)
    requires forall k :: 0 <= k < |TypeFixes| ==> !Occurs(s, TypeFixes[k].0)
    requires forall k :: 0 <= k < |Renames| ==> !Occurs(s, Renames[k].0)
    ensures CleanSignature(s) == s
  {
    RenamesAreValid();
    ReplaceEachUnchanged(s, TypeFixes);
    ReplaceEachUnchanged(s, Renames);
  }

  /** The renamings of one pattern, name by name. */
  lemma RenamesForListed(before: string, after: string)
    requires |before| == 1 && |after| == 1
    ensures RenamesFor((before, after), BadArgNames)
      == [(before + "in" + after, before + "input" + after),
          (before + "lambda" + after, before + "lmbda" + after),
          (before + "iter" + after, before + "it" + after)]
  {
  }

  /** The renamings after a blank and before a comma. */
  lemma BlankCommaRenames()
    ensures RenamesFor(ArgPatterns[0], BadArgNames) == [(" in,", " input,"), (" lambda,", " lmbda,"), (" iter,", " it,")]
  {
    RenamesForListed(" ", ",");
    assert " " + "in" + "," == " in," && " " + "input" + "," == " input,";
    assert " " + "lambda" + "," == " lambda," && " " + "lmbda" + "," == " lmbda,";
    assert " " + "iter" + "," == " iter," && " " + "it" + "," == " it,";
  }

  /** The renamings after a blank and before `)`. */
  lemma BlankParenRenames()
    ensures RenamesFor(ArgPatterns[1], BadArgNames) == [(" in)", " input)"), (" lambda)", " lmbda)"), (" iter)", " it)")]
  {
    RenamesForListed(" ", ")");
    assert " " + "in" + ")" == " in)" && " " + "input" + ")" == " input)";
    assert " " + "lambda" + ")" == " lambda)" && " " + "lmbda" + ")" == " lmbda)";
    assert " " + "iter" + ")" == " iter)" && " " + "it" + ")" == " it)";
  }

  /** The renamings after `*` and before a comma. */
  lemma StarCommaRenames()
    ensures RenamesFor(ArgPatterns[2], BadArgNames) == [("*in,", "*input,"), ("*lambda,", "*lmbda,"), ("*iter,", "*it,")]
  {
    RenamesForListed("*", ",");
    assert "*" + "in" + "," == "*in," && "*" + "input" + "," == "*input,";
    assert "*" + "lambda" + "," == "*lambda," && "*" + "lmbda" + "," == "*lmbda,";
    assert "*" + "iter" + "," == "*iter," && "*" + "it" + "," == "*it,";
  }

  /** The renamings after `*` and before `)`. */
  lemma StarParenRenames()
    ensures RenamesFor(ArgPatterns[3], BadArgNames) == [("*in)", "*input)"), ("*lambda)", "*lmbda)"), ("*iter)", "*it)")]
  {
    RenamesForListed("*", ")");
    assert "*" + "in" + ")" == "*in)" && "*" + "input" + ")" == "*input)";
    assert "*" + "lambda" + ")" == "*lambda)" && "*" + "lmbda" + ")" == "*lmbda)";
    assert "*" + "iter" + ")" == "*iter)" && "*" + "it" + ")" == "*it)";
  }

  /** The twelve renamings, in the order `clean_signatures` applies them:
      `in`, `lambda` and `iter` before a comma, then before `)`, each after a
      blank, then the same after `*`. */
  lemma RenamesListed()
    ensures Renames == [
      (" in,", " input,"), (" lambda,", " lmbda,"), (" iter,", " it,"),
      (" in)", " input)"), (" lambda)", " lmbda)"), (" iter)", " it)"),
      ("*in,", "*input,"), ("*lambda,", "*lmbda,"), ("*iter,", "*it,"),
      ("*in)", "*input)"), ("*lambda)", "*lmbda)"), ("*iter)", "*it)")]
  {
    var P, N := ArgPatterns, BadArgNames;
    assert RenameTable(P[3..], N) == RenamesFor(P[3], N) by {
      assert P[3..][1..] == [];
    }
    assert RenameTable(P[2..], N) == RenamesFor(P[2], N) + RenameTable(P[3..], N) by {
      assert P[2..][1..] == P[3..];
    }
    assert RenameTable(P[1..], N) == RenamesFor(P[1], N) + RenameTable(P[2..], N) by {
      assert P[1..][1..] == P[2..];
    }
    assert Renames == RenamesFor(P[0], N) + RenameTable(P[1..], N);
    BlankCommaRenames();
    BlankParenRenames();
    StarCommaRenames();
    StarParenRenames();
  }

  /** `int foo(int in)` becomes `int foo(int input)`. */
  lemma RenamesReservedParameter()
    ensures CleanSignature("int foo(int in)") == "int foo(int input)"
  {
    CleanSignatureOfIn("int foo(int in)", "int foo(int input)");
  }

  lemma CleanSignatureOfIn(s: string, t: string)
    requires s == "int foo(int in)" && t == "int foo(int input)"
    ensures CleanSignature(s) == t
  {
    TypeFixesOnIn(s);
    RenamesOnInListed(s, t);
    CleanSignatureOfParts(s, t);
  }

  /** Neither type fix applies to `int foo(int in)`. */
  lemma TypeFixesOnIn(s: string)
    requires s == "int foo(int in)"
    ensures ValidTable(TypeFixes) && ReplaceEach(s, TypeFixes) == s
  {
    RenamesAreValid();
    TypeFixesAbsent(s);
    ReplaceEachUnchanged(s, TypeFixes);
  }

  /** A fragment the type fixes leave alone is cleaned by the renamings alone. */
  lemma CleanSignatureOfParts(s: string, t: string)
    requires ValidTable(TypeFixes) && ValidTable(Renames)
    requires ReplaceEach(s, TypeFixes) == s && ReplaceEach(s, Renames) == t
    ensures CleanSignature(s) == t
  {
  }

  /** The renaming table, as listed, on `int foo(int in)`. */
  lemma RenamesOnInListed(s: string, t: string)
    requires s == "int foo(int in)" && t == "int foo(int input)"
    ensures ValidTable(Renames) && ReplaceEach(s, Renames) == t
  {
    RenamesListed();
    RenamesOnIn(s, t, Renames);
  }

  /** The twelve renamings on `int foo(int in)`: the fourth renames the
      parameter, and none of the others applies before or after it. */
  lemma RenamesOnIn(s: string, t: string, table: seq<(string, string)>)
    requires s == "int foo(int in)" && t == "int foo(int input)"
    requires table == [
      (" in,", " input,"), (" lambda,", " lmbda,"), (" iter,", " it,"),
      (" in)", " input)"), (" lambda)", " lmbda)"), (" iter)", " it)"),
      ("*in,", "*input,"), ("*lambda,", "*lmbda,"), ("*iter,", "*it,"),
      ("*in)", "*input)"), ("*lambda)", "*lmbda)"), ("*iter)", "*it)")]
    ensures ValidTable(table) && ReplaceEach(s, table) == t
  {
    FirstFourRenames(s, table[..4]);
    LastEightRenamesAbsent(t, table[4..]);
    ReplaceEachSplit(s, table, 4);
    ReplaceEachUnchanged(t, table[4..]);
  }

  /** `int foo(int inx)` is left as it is: `inx` is not a reserved name. */
  lemma KeepsLongerName()
    ensures CleanSignature("int foo(int inx)") == "int foo(int inx)"
  {
    CleanSignatureOfInx("int foo(int inx)");
  }

  lemma CleanSignatureOfInx(s: string)
    requires s == "int foo(int inx)"
    ensures CleanSignature(s) == s
  {
    TypeFixesAbsent(s);
    RenamesListed();
    RenamesAbsentFromInx(s, Renames);
    CleanSignatureUnchanged(s);
  }

  /** None of the twelve reserved forms occurs in `int foo(int inx)`. The
      only candidate, ` in)`, would have to end the text, which ends in
      `inx)`. */
  lemma RenamesAbsentFromInx(s: string, table: seq<(string, string)>)
    requires s == "int foo(int inx)"
    requires table == [
      (" in,", " input,"), (" lambda,", " lmbda,"), (" iter,", " it,"),
      (" in)", " input)"), (" lambda)", " lmbda)"), (" iter)", " it)"),
      ("*in,", "*input,"), ("*lambda,", "*lmbda,"), ("*iter,", "*it,"),
      ("*in)", "*input)"), ("*lambda)", "*lmbda)"), ("*iter)", "*it)")]
    ensures forall k :: 0 <= k < |table| ==> !Occurs(s, table[k].0)
  {
    forall k | 0 <= k < |table| ensures !Occurs(s, table[k].0) {
      if k == 3 {
        assert s[..|s| - 1] == "int foo(int inx";
        assert s[|s| - 4..] == "inx)";
        OccursOnlyAtEnd(s, table[k].0);
      } else if k == 4 {
        AbsentChar(s, table[k].0, 'l');
      } else if k == 5 {
        AbsentChar(s, table[k].0, 'e');
      } else if k < 9 {
        AbsentChar(s, table[k].0, ',');
      } else {
        AbsentChar(s, table[k].0, '*');
      }
    }
  }

  /** Neither type fix applies to a text without `v` and `e`. */
  lemma TypeFixesAbsent(s: string)
    requires 'v' !in s && 'e' !in s
    ensures forall k :: 0 <= k < |TypeFixes| ==> !Occurs(s, TypeFixes[k].0)
  {
    AbsentChar(s, "(void)", 'v');
    AbsentChar(s, " enum ", 'e');
  }

  /** The first four renamings on `int foo(int in)`: only ` in)` matches. */
  lemma FirstFourRenames(s: string, head: seq<(string, string)>)
    requires s == "int foo(int in)"
    requires head == [(" in,", " input,"), (" lambda,", " lmbda,"), (" iter,", " it,"), (" in)", " input)")]
    ensures ValidTable(head) && ReplaceEach(s, head) == "int foo(int input)"
  {
    CommaFormsAbsent(s, head[..3]);
    ReplaceEachUnchanged(s, head[..3]);
    ReplaceEachStep(s, head, 3);
    assert head[..4] == head;
    ReservedNameBeforeParen(s, head[3].0, head[3].1, "int foo(int input)");
  }

  /** The three forms before a comma do not occur in a text without commas. */
  lemma CommaFormsAbsent(s: string, forms: seq<(string, string)>)
    requires ',' !in s
    requires forms == [(" in,", " input,"), (" lambda,", " lmbda,"), (" iter,", " it,")]
    ensures ValidTable(forms) && forall k :: 0 <= k < |forms| ==> !Occurs(s, forms[k].0)
  {
    forall k | 0 <= k < |forms| ensures !Occurs(s, forms[k].0) {
      AbsentChar(s, forms[k].0, ',');
    }
  }

  /** The replacement of ` in)` in `int foo(int in)`. */
  lemma ReservedNameBeforeParen(s: string, p: string, r: string, t: string)
    requires s == "int foo(int in)" && p == " in)" && r == " input)" && t == "int foo(int input)"
    ensures ReplaceAll(s, p, r) == t
  {
    var a := "int foo(int";
    assert s == a + p && t == a + r;
    assert p[..|p| - 1] == " in";
    ReplaceAllCopiesPrefix(a, p, p, r);
    ReplaceAllWhole(p, r);
  }

  /** None of the last eight renamings applies to `int foo(int input)`: each
      holds an `l`, an `e` or a `*`, which that text lacks. */
  lemma LastEightRenamesAbsent(t: string, tail: seq<(string, string)>)
    requires t == "int foo(int input)"
    requires tail == [(" lambda)", " lmbda)"), (" iter)", " it)"),
      ("*in,", "*input,"), ("*lambda,", "*lmbda,"), ("*iter,", "*it,"),
      ("*in)", "*input)"), ("*lambda)", "*lmbda)"), ("*iter)", "*it)")]
    ensures ValidTable(tail)
    ensures forall k :: 0 <= k < |tail| ==> !Occurs(t, tail[k].0)
  {
    forall k | 0 <= k < |tail| ensures !Occurs(t, tail[k].0) {
      if k == 0 {
        AbsentChar(t, tail[k].0, 'l');
      } else if k == 1 {
        AbsentChar(t, tail[k].0, 'e');
      } else {
        AbsentChar(t, tail[k].0, '*');
      }
    }
  }

  // ---------------------------------------------------------------------------
  // Documentation cleanup of `clean_doc`

  /** `doc` without its trailing empty lines. */
  function DropTrailingEmpty(doc: seq<string>): (r: seq<string>)
    ensures |r| <= |doc| && r == doc[..|r|]
    ensures r == [] || r[|r| - 1] != ""
    ensures forall k :: |r| <= k < |doc| ==> doc[k] == ""
  {
    if doc != [] && doc[|doc| - 1] == "" then DropTrailingEmpty(doc[..|doc| - 1]) else doc
  }

  /** One documentation line with the `\choose ` escape rewritten. */
  function FixChoose(line: string): string
  {
    ReplaceAll(line, "\\choose ", "choose ")
  }

  /** The documentation after `clean_doc`. */
  function CleanDocLines(doc: seq<string>): (r: seq<string>)
  {
    MapFixChoose(DropTrailingEmpty(doc))
  }

  /** The `\choose ` rewrite applied to every line: the lines keep their
      number and places, and a line without the escape is left as it is. */
  function MapFixChoose(doc: seq<string>): (r: seq<string>)
    ensures |r| == |doc|
    ensures forall k :: 0 <= k < |doc| && !Occurs(doc[k], "\\choose ") ==> r[k] == doc[k]
  {
    seq(|doc|, k requires 0 <= k < |doc| => FixChoose(doc[k]))
  }

  /** The escape is rewritten: in a line whose first `\choose ` comes after
      a backslash-free prefix `a`, that escape becomes `choose `, the prefix
      is kept, and the rest of the line is rewritten in turn. */
  lemma FixChooseRewrites(a: string, b: string)
    requires '\\' !in a
    ensures FixChoose(a + "\\choose " + b) == a + "choose " + FixChoose(b)
  {
    RewriteAfterPrefix(a, b, "\\choose ", "choose ");
  }

  lemma RewriteAfterPrefix(a: string, b: string, p: string, r: string)
    requires p == "\\choose " && r == "choose " && '\\' !in a
    ensures ReplaceAll(a + p + b, p, r) == a + r + ReplaceAll(b, p, r)
  {
    assert p[0] == '\\';
    assert a + p + b == a + (p + b);
    ReplaceAllCopiesHeadless(a, p + b, p, r);
    ReplaceAllAtFront(p, b, r);
  }

  /** `clean_doc` rewrites the escape in every kept line: a kept line whose
      first `\choose ` follows a backslash-free prefix comes out with
      `choose ` in its place. */
  lemma CleanDocRewritesChoose(doc: seq<string>, k: nat, a: string, b: string)
    requires k < |DropTrailingEmpty(doc)| && DropTrailingEmpty(doc)[k] == a + "\\choose " + b
    requires '\\' !in a
    ensures |CleanDocLines(doc)| == |DropTrailingEmpty(doc)|
    ensures CleanDocLines(doc)[k] == a + "choose " + FixChoose(b)
  {
    FixChooseRewrites(a, b);
  }

  /** Documentation whose lines are all non-empty loses no line to
      `clean_doc`, and its lines stay non-empty. */
  lemma CleanDocKeepsNonEmpty(doc: seq<string>)
    requires forall k :: 0 <= k < |doc| ==> doc[k] != ""
    ensures |CleanDocLines(doc)| == |doc|
    ensures forall k :: 0 <= k < |doc| ==> CleanDocLines(doc)[k] == FixChoose(doc[k]) != ""
  {
    forall k | 0 <= k < |doc| ensures FixChoose(doc[k]) != "" {
      ReplaceAllNonEmpty(doc[k], "\\choose ", "choose ");
    }
  }
}

=== FILE: Text.dfy ===
/** String helpers standing in for the Python `str` methods the extractor uses:
    `startswith`, `endswith`, `in` (substring test), `replace` and `strip`. */
module Text {

  datatype Option<+T> = None | Some(value: T)

  predicate StartsWith(s: string, prefix: string)
  {
    |prefix| <= |s| && s[..|prefix|] == prefix
  }

  predicate EndsWith(s: string, suffix: string)
  {
    |suffix| <= |s| && s[|s| - |suffix|..] == suffix
  }

  /** Python's `q in s` for strings: `q` is a substring of `s`. */
  predicate Occurs(s: string, q: string)
    decreases |s|
  {
    if |s| < |q| then false else s[..|q|] == q || Occurs(s[1..], q)
  }

  /** A string of `n` blanks, Python's `' ' * n`. */
  function Spaces(n: nat): (r: string)
    ensures |r| == n && forall k :: 0 <= k < n ==> r[k] == ' '
  {
    if n == 0 then "" else Spaces(n - 1) + " "
  }

  /** Python's `s.replace(p, r)`: every occurrence of `p`, found from left to
      right and never overlapping an earlier one, is replaced by `r`.
      The extractor only ever replaces non-empty patterns. */
  function ReplaceAll(s: string, p: string, r: string): (t: string)
    requires |p| > 0
    ensures !Occurs(s, p) ==> t == s
    decreases |s|
  {
    if |s| < |p| then s
    else if s[..|p|] == p then r + ReplaceAll(s[|p|..], p, r)
    else [s[0]] + ReplaceAll(s[1..], p, r)
  }

  /** The characters for which Python's `str.isspace` holds. */
  predicate IsSpace(c: char)
  {
    c == ' ' || ('\t' <= c <= '\r') || ('\U{1C}' <= c <= '\U{1F}')
    || c == '\U{85}' || c == '\U{A0}' || c == '\U{1680}'
    || ('\U{2000}' <= c <= '\U{200A}') || c == '\U{2028}' || c == '\U{2029}'
    || c == '\U{202F}' || c == '\U{205F}' || c == '\U{3000}'
  }

  predicate AllSpace(s: string)
  {
    forall k :: 0 <= k < |s| ==> IsSpace(s[k])
  }

  /** All of `s[lo..hi]` is whitespace. */
  predicate SpaceBetween(s: string, lo: nat, hi: nat)
    requires lo <= hi <= |s|
  {
    forall k :: lo <= k < hi ==> IsSpace(s[k])
  }

  /** The index of the first non-whitespace character of `s` at or after `j`,
      or `|s|` if there is none. */
  function SkipSpaces(s: string, j: nat): (e: nat)
    requires j <= |s|
    ensures j <= e <= |s| && SpaceBetween(s, j, e)
    ensures e < |s| ==> !IsSpace(s[e])
    decreases |s| - j
  {
    if j == |s| || !IsSpace(s[j]) then j else SkipSpaces(s, j + 1)
  }

  /** The index just after the last non-whitespace character of `s[lo..j]`,
      or `lo` if there is none. */
  function SkipSpacesBack(s: string, lo: nat, j: nat): (e: nat)
    requires lo <= j <= |s|
    ensures lo <= e <= j && SpaceBetween(s, e, j)
    ensures lo < e ==> !IsSpace(s[e - 1])
    decreases j
  {
    if j == lo || !IsSpace(s[j - 1]) then j else SkipSpacesBack(s, lo, j - 1)
  }

  /** Python's `s.strip()`: `s` without its leading and trailing whitespace.
      The result is a slice of `s`; it is empty exactly when `s` is all
      whitespace, and otherwise neither starts nor ends with whitespace. */
  function Strip(s: string): (t: string)
    ensures |t| <= |s|
    ensures t == "" <==> AllSpace(s)
    ensures t != "" ==> !IsSpace(t[0]) && !IsSpace(t[|t| - 1])
    ensures SkipSpaces(s, 0) + |t| <= |s| && t == s[SkipSpaces(s, 0)..SkipSpaces(s, 0) + |t|]
    ensures SpaceBetween(s, SkipSpaces(s, 0) + |t|, |s|)
  {
    var a := SkipSpaces(s, 0);
    var b := SkipSpacesBack(s, a, |s|);
    assert a < |s| ==> a < b;
    s[a..b]
  }

  // ---------------------------------------------------------------------------
  // Occurrences of a pattern across a replacement

  /** `a` and `b` agree on their common length (one is a prefix of the other). */
  predicate Compatible(a: string, b: string)
  {
    if |a| <= |b| then a == b[..|a|] else a[..|b|] == b
  }

  /** A replacement text `r` that cannot help form an occurrence of `q`:
      no suffix of `r` lines up with the start of `q`, and the first
      character of `r` does not appear in `q` after its first character. */
  predicate NoOverlap(r: string, q: string)
  {
    |r| > 0 && |q| > 0 && r[0] !in q[1..] && forall j :: 0 <= j < |r| ==> !Compatible(r[j..], q)
  }

  lemma NoOverlapByHeads(r: string, q: string)
    requires |r| > 0 && |q| > 0 && q[0] !in r && r[0] !in q[1..]
    ensures NoOverlap(r, q)
  {
    forall j | 0 <= j < |r| ensures !Compatible(r[j..], q) {
      assert r[j..][0] == r[j];
    }
  }

  lemma {:induction false} NoOccurrenceInSuffix(s: string, q: string, k: nat)
    requires k <= |s| && !Occurs(s, q)
    ensures !Occurs(s[k..], q)
    decreases k
  {
    if k > 0 {
      assert s[k..] == s[1..][k - 1..];
      NoOccurrenceInSuffix(s[1..], q, k - 1);
    }
  }

  /** A text starting with a replacement `r` holds an occurrence of `q` only
      inside the part after `r`. */
  lemma {:induction false} NoOccurrenceAcross(r: string, x: string, q: string)
    requires |q| > 0 && forall j :: 0 <= j < |r| ==> !Compatible(r[j..], q)
    requires !Occurs(x, q)
    ensures !Occurs(r + x, q)
    decreases |r|
  {
    if r == [] {
      assert r + x == x;
    } else {
      assert !Compatible(r[0..], q);
      assert r[0..] == r;
      if |r + x| >= |q| {
        assert (r + x)[..|q|] != q;
      }
      forall j | 0 <= j < |r[1..]| ensures !Compatible(r[1..][j..], q) {
        assert r[1..][j..] == r[j + 1..];
      }
      NoOccurrenceAcross(r[1..], x, q);
      assert (r + x)[1..] == r[1..] + x;
    }
  }

  /** A prefix of a replaced text that cannot contain the start of `r` was
      already a prefix of the original text. */
  lemma {:induction false} PrefixBeforeReplacement(t: string, p: string, r: string, u: string)
    requires |p| > 0 && |r| > 0 && r[0] !in u
    requires StartsWith(ReplaceAll(t, p, r), u)
    ensures StartsWith(t, u)
    decreases |t|
  {
    var out := ReplaceAll(t, p, r);
    if u != [] && |t| >= |p| {
      assert out[0] == u[0] != r[0];
      assert t[..|p|] != p;
      var x := ReplaceAll(t[1..], p, r);
      assert out == [t[0]] + x;
      assert StartsWith(x, u[1..]) by {
        assert x[..|u| - 1] == out[1..|u|];
      }
      PrefixBeforeReplacement(t[1..], p, r, u[1..]);
      assert t[..|u|] == [t[0]] + t[1..][..|u| - 1];
    }
  }

  /** After `s.replace(p, r)`, `p` no longer occurs, provided `r` cannot
      recreate it. */
  lemma {:induction false} ReplaceAllRemoves(s: string, p: string, r: string)
    requires NoOverlap(r, p)
    ensures !Occurs(ReplaceAll(s, p, r), p)
    decreases |s|
  {
    var out := ReplaceAll(s, p, r);
    if |s| < |p| {
    } else if s[..|p|] == p {
      ReplaceAllRemoves(s[|p|..], p, r);
      NoOccurrenceAcross(r, ReplaceAll(s[|p|..], p, r), p);
    } else {
      var x := ReplaceAll(s[1..], p, r);
      ReplaceAllRemoves(s[1..], p, r);
      assert out == [s[0]] + x;
      if |out| >= |p| && out[..|p|] == p {
        assert StartsWith(x, p[1..]) by {
          assert x[..|p| - 1] == out[1..|p|];
        }
        PrefixBeforeReplacement(s[1..], p, r, p[1..]);
        assert false;
      }
      assert out[1..] == x;
    }
  }

  /** `s.replace(p, r)` does not create an occurrence of `q` that `s` did not
      have, provided `r` cannot help form one. */
  lemma {:induction false} ReplaceAllKeepsAbsent(s: string, p: string, r: string, q: string)
    requires |p| > 0 && NoOverlap(r, q) && !Occurs(s, q)
    ensures !Occurs(ReplaceAll(s, p, r), q)
    decreases |s|
  {
    var out := ReplaceAll(s, p, r);
    if |s| < |p| {
    } else if s[..|p|] == p {
      NoOccurrenceInSuffix(s, q, |p|);
      ReplaceAllKeepsAbsent(s[|p|..], p, r, q);
      NoOccurrenceAcross(r, ReplaceAll(s[|p|..], p, r), q);
    } else {
      var x := ReplaceAll(s[1..], p, r);
      NoOccurrenceInSuffix(s, q, 1);
      ReplaceAllKeepsAbsent(s[1..], p, r, q);
      assert out == [s[0]] + x;
      if |out| >= |q| && out[..|q|] == q {
        assert StartsWith(x, q[1..]) by {
          assert x[..|q| - 1] == out[1..|q|];
        }
        PrefixBeforeReplacement(s[1..], p, r, q[1..]);
        assert false;
      }
      assert out[1..] == x;
    }
  }

  /** A replacement `r` whose start may line up with the end of `q` only
      where the pattern `p` starts the same way: every proper suffix of `q`
      that lines up with `r` is also a prefix of `p`. */
  predicate SharedLead(p: string, r: string, q: string)
  {
    forall k :: 1 <= k < |q| && Compatible(q[k..], r) ==>
      |q| - k <= |r| && |q| - k <= |p| && q[k..] == p[..|q| - k]
  }

  /** A prefix of a text that starts with `r` lines up with `r`. */
  lemma LeadOfReplacement(u: string, r: string, x: string)
    requires StartsWith(r + x, u)
    ensures Compatible(u, r)
  {
    if |u| <= |r| {
      assert (r + x)[..|u|] == r[..|u|];
    } else {
      assert u[..|r|] == (r + x)[..|u|][..|r|] == r;
    }
  }

  /** A prefix of a replaced text that is a proper suffix of `q` was already a
      prefix of the original text, when `r` and `p` share their lead. */
  lemma {:induction false} PrefixBeforeShared(t: string, p: string, r: string, q: string, k: nat)
    requires |p| > 0 && 1 <= k <= |q| && SharedLead(p, r, q)
    requires StartsWith(ReplaceAll(t, p, r), q[k..])
    ensures StartsWith(t, q[k..])
    decreases |t|
  {
    var out := ReplaceAll(t, p, r);
    var u := q[k..];
    if k == |q| {
      assert u == [] && t[..0] == [];
    } else if |t| < |p| {
    } else if t[..|p|] == p {
      assert out == r + ReplaceAll(t[|p|..], p, r);
      LeadOfReplacement(u, r, ReplaceAll(t[|p|..], p, r));
      assert t[..|u|] == p[..|u|];
    } else {
      var x := ReplaceAll(t[1..], p, r);
      assert out == [t[0]] + x;
      assert StartsWith(x, q[k + 1..]) by {
        assert q[k + 1..] == u[1..];
        assert x[..|u| - 1] == out[1..|u|];
      }
      PrefixBeforeShared(t[1..], p, r, q, k + 1);
      assert q[k + 1..] == u[1..];
      assert t[..|u|] == [t[0]] + t[1..][..|u| - 1];
    }
  }

  /** `s.replace(p, r)` does not create an occurrence of `q` that `s` did not
      have, when no suffix of `r` lines up with `q` and `r` shares its lead
      with `p`. */
  lemma {:induction false} ReplaceAllKeepsAbsentShared(s: string, p: string, r: string, q: string)
    requires |p| > 0 && |q| > 0 && !Occurs(s, q) && SharedLead(p, r, q)
    requires forall j :: 0 <= j < |r| ==> !Compatible(r[j..], q)
    ensures !Occurs(ReplaceAll(s, p, r), q)
    decreases |s|
  {
    var out := ReplaceAll(s, p, r);
    if |s| < |p| {
    } else if s[..|p|] == p {
      NoOccurrenceInSuffix(s, q, |p|);
      ReplaceAllKeepsAbsentShared(s[|p|..], p, r, q);
      NoOccurrenceAcross(r, ReplaceAll(s[|p|..], p, r), q);
    } else {
      var x := ReplaceAll(s[1..], p, r);
      NoOccurrenceInSuffix(s, q, 1);
      ReplaceAllKeepsAbsentShared(s[1..], p, r, q);
      assert out == [s[0]] + x;
      if |out| >= |q| && out[..|q|] == q {
        assert StartsWith(x, q[1..]) by {
          assert x[..|q| - 1] == out[1..|q|];
        }
        PrefixBeforeShared(s[1..], p, r, q, 1);
        assert false;
      }
      assert out[1..] == x;
    }
  }

  /** A character of `s` survives `s.replace(p, r)` when a match of `p` that
      contains it is replaced by text that contains it too. */
  lemma {:induction false} ReplaceAllKeepsChar(s: string, p: string, r: string, c: char)
    requires |p| > 0 && c in s && (c in p ==> c in r)
    ensures c in ReplaceAll(s, p, r)
    decreases |s|
  {
    if |s| < |p| {
    } else if s[..|p|] == p {
      if c !in r {
        var k :| 0 <= k < |s| && s[k] == c;
        assert s[|p|..][k - |p|] == c;
        ReplaceAllKeepsChar(s[|p|..], p, r, c);
      }
    } else if s[0] != c {
      var k :| 0 <= k < |s| && s[k] == c;
      assert s[1..][k - 1] == c;
      ReplaceAllKeepsChar(s[1..], p, r, c);
    }
  }

  /** Replacing with a non-empty text never empties a non-empty string. */
  lemma ReplaceAllNonEmpty(s: string, p: string, r: string)
    requires |p| > 0 && |r| > 0 && s != ""
    ensures ReplaceAll(s, p, r) != ""
  {
  }

  // ---------------------------------------------------------------------------
  // Deciding occurrences and replacements on given strings

  /** A text holding a character that `s` lacks does not occur in `s`. */
  lemma {:induction false} AbsentChar(s: string, q: string, c: char)
    requires c in q && c !in s
    ensures !Occurs(s, q)
    decreases |s|
  {
    if |s| >= |q| {
      assert forall x :: x in s[1..] ==> x in s;
      AbsentChar(s[1..], q, c);
    }
  }

  /** A text that is not a suffix of `s`, and whose last character appears
      in `s` at most as the last character of `s`, does not occur in `s`. */
  lemma {:induction false} OccursOnlyAtEnd(s: string, q: string)
    requires |q| > 0 && |s| > 0 && q[|q| - 1] !in s[..|s| - 1] && !EndsWith(s, q)
    ensures !Occurs(s, q)
    decreases |s|
  {
    if |s| >= |q| {
      if |s| - 1 >= |q| {
        var u := s[1..];
        assert u[..|u| - 1] == s[..|s| - 1][1..];
        assert u[|u| - |q|..] == s[|s| - |q|..];
        OccursOnlyAtEnd(u, q);
      }
    }
  }

  /** `replace` copies the first character of a text that does not start
      with the pattern. */
  lemma ReplaceAllSkips(s: string, p: string, r: string)
    requires |p| > 0 && |s| > 0 && !StartsWith(s, p)
    ensures ReplaceAll(s, p, r) == [s[0]] + ReplaceAll(s[1..], p, r)
  {
    if |s| < |p| {
      assert s == [s[0]] + s[1..];
    }
  }

  /** `replace` turns a text that is exactly the pattern into the replacement. */
  lemma ReplaceAllWhole(p: string, r: string)
    requires |p| > 0
    ensures ReplaceAll(p, p, r) == r
  {
    assert p[..|p|] == p && p[|p|..] == [];
  }

  /** No match starts at the front of `a + t` when the last character of `p`
      appears neither in `a` nor among the first `|p| - 1` characters of `t`. */
  lemma NoMatchAtFront(a: string, t: string, p: string)
    requires |p| > 0 && |a| > 0 && |t| >= |p| - 1
    requires p[|p| - 1] !in a && p[|p| - 1] !in t[..|p| - 1]
    ensures !StartsWith(a + t, p)
  {
    var s := a + t;
    if |p| <= |s| {
      if |p| - 1 < |a| {
        assert s[|p| - 1] == a[|p| - 1];
      } else {
        assert s[|p| - 1] == t[..|p| - 1][|p| - 1 - |a|];
      }
      assert s[..|p|][|p| - 1] == s[|p| - 1];
    }
  }

  /** One step of copying a prefix: when no match starts at the front,
      copying the rest of the prefix copies all of it. */
  lemma ReplaceAllCopiesFirst(a: string, t: string, p: string, r: string)
    requires |p| > 0 && |a| > 0 && !StartsWith(a + t, p)
    requires ReplaceAll(a[1..] + t, p, r) == a[1..] + ReplaceAll(t, p, r)
    ensures ReplaceAll(a + t, p, r) == a + ReplaceAll(t, p, r)
  {
    var s, u := a + t, ReplaceAll(t, p, r);
    ReplaceAllSkips(s, p, r);
    HeadAndTail(a, t);
    HeadAndTail(a, u);
  }

  /** `a + t` is the first character of `a` followed by the rest of `a` and `t`. */
  lemma HeadAndTail(a: string, t: string)
    requires |a| > 0
    ensures (a + t)[0] == a[0] && (a + t)[1..] == a[1..] + t
    ensures [a[0]] + (a[1..] + t) == a + t
  {
    assert a == [a[0]] + a[1..];
  }

  /** `replace` copies a prefix `a` that does not hold the first character
      of `p`: no match can start inside it. */
  lemma {:induction false} ReplaceAllCopiesHeadless(a: string, t: string, p: string, r: string)
    requires |p| > 0 && p[0] !in a
    ensures ReplaceAll(a + t, p, r) == a + ReplaceAll(t, p, r)
    decreases |a|
  {
    if a == [] {
      assert a + t == t;
    } else {
      var s := a + t;
      if |p| <= |s| {
        assert s[..|p|][0] == a[0];
      }
      assert p[0] !in a[1..] by {
        assert forall x :: x in a[1..] ==> x in a;
      }
      ReplaceAllCopiesHeadless(a[1..], t, p, r);
      ReplaceAllCopiesFirst(a, t, p, r);
    }
  }

  /** `replace` on a text that starts with the pattern replaces that match
      and carries on after it. */
  lemma ReplaceAllAtFront(p: string, b: string, r: string)
    requires |p| > 0
    ensures ReplaceAll(p + b, p, r) == r + ReplaceAll(b, p, r)
  {
    var s := p + b;
    assert s[..|p|] == p && s[|p|..] == b;
  }

  /** `replace` copies a prefix `a` in which no match can start: the last
      character of `p` appears neither in `a` nor among the first `|p| - 1`
      characters of `t`. */
  lemma {:induction false} ReplaceAllCopiesPrefix(a: string, t: string, p: string, r: string)
    requires |p| > 0 && |t| >= |p| - 1
    requires p[|p| - 1] !in a && p[|p| - 1] !in t[..|p| - 1]
    ensures ReplaceAll(a + t, p, r) == a + ReplaceAll(t, p, r)
    decreases |a|
  {
    if a == [] {
      assert a + t == t;
    } else {
      NoMatchAtFront(a, t, p);
      assert p[|p| - 1] !in a[1..] by {
        assert forall x :: x in a[1..] ==> x in a;
      }
      ReplaceAllCopiesPrefix(a[1..], t, p, r);
      ReplaceAllCopiesFirst(a, t, p, r);
    }
  }


}
